=== FILE: README.md ===
# dragonshoard room server, modelled in Dafny

This project models the game-room server of dragonshoard (`index.js`). It
is a socket.io server. Connections join named rooms, and each room holds
one shared game record:

- a roster of up to four connection ids and a private hand of cards for
  each;
- a table of placed cards;
- a 36-card main deck;
- eight layers of positioned objects (dots, hexes, squares and five image
  columns).

Every inbound event is a small guard-then-mutate step on that record,
followed by messages to the sender or to the whole room.

The model is functional. The room store is a `map<RoomId, Game>`. One
event from one connection is the pure function
`Server.Step(store, ctx, me, event, env)`. It returns the new store, the
connection's bound room, the messages sent and whether the handler
completed or threw. The modules follow the program's structure:

| file | module | what it holds |
|---|---|---|
| basics.dfy | `Basics` | `Option` |
| seqs.dfy | `Seqs` | first index, removal at a position and removal of every copy, on sequences |
| deck.dfy | `Deck` | card names, `shuffle` (Fisher–Yates), `createMainDeck` |
| layers.dfy | `Layers` | the eight layers: lengths, initial values, in-place edits |
| session.dfy | `Session` | the game record, a new room's record, the bag of all cards |
| protocol.dfy | `Protocol` | outbound messages, `broadcastHandCounts`, the join snapshot |
| handlers.dfy | `Handlers` | one function per event handler on a bound game |
| server.dfy | `Server` | the store, `join-room`, `disconnect`, dispatch |
| conservation.dfy | `Conservation` | card conservation, operation by operation |
| invariants.dfy | `Invariants` | capacity and well-formedness, silent rejection, hand privacy, eviction |
| scenario.dfy | `Scenario` | a worked session, and a room drained and re-created |

Where the program's behaviour is surprising, the model follows the
program:

- `play-card` places the card on the table even when the caller does not
  hold it. That duplicates a card, so the total grows by one
  (`Conservation.PlayConservesIffHeld`).
- `disconnect` throws the leaver's hand away, and a repeated `join-room`
  resets the joiner's hand to `[]`. Neither returns the cards to the deck
  (`Conservation.LeaveDropsHand`, `Conservation.AdmitDropsOldHand`). Card
  conservation is therefore proved per operation, not as a global
  invariant.
- A refused joiner still has its `room` and `game` bound. Its hand-touching
  events then throw a TypeError instead of doing nothing. `draw-card`
  pops the deck before it throws (`Invariants.RefusedJoinerDrawFaults`,
  `Conservation.DrawFaultLosesCard`).
- A `join-room` for an unknown room id that names a property every plain
  object inherits (`constructor`, `__proto__`, `toString`,
  `hasOwnProperty` and the others in `Server.Inherited`) creates no room.
  The lookup finds the inherited value, and reading its roster length
  throws a TypeError (index.js:268-286). `Server.Join` shows this as
  `Threw`, with the connection bound to that id and the store unchanged.
- A seated player that sends `join-room` for another room is rebound to
  it, but its roster entry and hand stay in the first room. Its later
  `disconnect` filters only the second room, so the seat in the first
  stays for good: it counts towards the four places and keeps the room
  from being evicted (index.js:265-292, 397;
  `Scenario.SwitchRoomKeepsSeat`).
- `return-card-from-hand` and `return-card-from-table` send the room its
  hand counts before the card goes back into the deck. The counts depend
  only on hand sizes, so they are the same either way
  (`Protocol.CountsRevealOnlySizes`).

The status `Threw` stands for an uncaught exception. The handlers are
socket.io listeners with no `try`/`catch`, and nothing installs a handler
for uncaught exceptions. Under Node's default handling the throw therefore
ends the server process, and every room is lost with it. The store that
comes with a `Threw` outcome is the state at the moment of the throw,
including whatever was mutated before it. The lemmas about such outcomes,
`Conservation.DrawFaultLosesCard` among them, describe that last state. The
server does not go on from it.

Two pieces of the environment are parameters:

- `Math.random()` is a function `rnd: nat -> [0, 1)`. The k-th call made
  while handling an event returns `rnd(k)`.
- The pixel arithmetic that seeds layer positions is a function
  `layout: (LayerId, nat) -> Pos`.

Client-supplied `x`, `y` and `value` are opaque values.

## Model

| member | source | states |
|---|---|---|
| Seqs.IndexOf | index.js:324 | `indexOf` is -1 exactly when the element is absent; otherwise it is the first position holding it |
| Seqs.RemoveFirst | index.js:324-325 | removing an absent element changes nothing; a present one loses exactly its first copy: the result is the part before that copy followed by the part after it, in order, one shorter, and with one copy fewer in its multiset |
| Seqs.RemoveAt | index.js:354 | splicing out one entry drops exactly position `i` and shifts the rest left; the multiset loses exactly that element |
| Seqs.Without | index.js:397 | filtering out `me` removes every copy of it and keeps every other element with its multiplicity; a roster without `me` is returned as is |
| Seqs.WithoutAppend | index.js:397 | the filter distributes over concatenation, so the remaining roster entries keep their order |
| Seqs.WithoutSingleton | index.js:397 | on one entry, the filter keeps it exactly when it differs from `me` |
| Seqs.DistinctIffSingleCounts | index.js:101-105 | a sequence has no duplicates exactly when every element occurs at most once in its multiset |
| Seqs.PermutationKeepsDistinct | index.js:104 | a permutation of a duplicate-free deck is duplicate-free |
| Deck.Pick | index.js:94 | a random unit scaled to i + 1 and rounded down is a position in `0..i` |
| Deck.Swap | index.js:95 | the destructuring swap exchanges positions `i` and `j`, changes no other position and keeps the multiset |
| Deck.ShuffleFrom | index.js:93-96 | the Fisher–Yates loop from any position down to 1 keeps the length and the multiset |
| Deck.Shuffle | index.js:92-98 | `shuffle` returns a permutation of its input: same length, same multiset |
| Deck.DecimalString | index.js:103 | `toString()` of a number gives at least one character |
| Deck.DecimalStringDigits | index.js:103 | the decimal string is all digits, and is one character long exactly for the numbers below ten |
| Deck.PadStart | index.js:103 | `padStart(width, fill)` keeps a string already at least `width` long; otherwise the result is `width` long, ends with the string and is `fill` before it |
| Deck.CardName | index.js:103 | no contract; characterised by Deck.CardNameIsDigits, Deck.CardNameDigits and Deck.CardNameInjective |
| Deck.CardNameIsDigits | index.js:103 | every card name is at least two characters, all digits, with a leading zero for the numbers below ten |
| Deck.CardNameDigits | index.js:103 | for 1..99, the decimal string padded with zeros to two characters is exactly the tens digit followed by the units digit |
| Deck.CardNameInjective | index.js:103 | two numbers in 1..99 have the same card name only if they are equal |
| Deck.NamesDistinct | index.js:103 | a list of the names of 1, 2, ... (at most 99 of them) has no repeated name |
| Deck.Universe | index.js:102-103 | the list the creation loop builds has 36 entries, the one at position `i` being the name of `i + 1` |
| Deck.UniverseShape | index.js:101-105 | the cards pushed by `createMainDeck` are 36 distinct two-character names, the first "01" and the last "36" |
| Deck.CreateMainDeck | index.js:101-105 | a new deck has 36 cards, holds every card of the universe exactly once and has no duplicates |
| Layers.InitLayer | index.js:108-249 | a fresh layer has the layer's seeded length; its contents are stated by Layers.InitLayerShape |
| Layers.InitLayerShape | index.js:108-249 | a seeded layer holds the seeded positions; entries carry a value exactly on hexes and squares; every hex starts at 20; both rows of squares start at the shape maxima 4, 6, 6, 6, 6, 6, 8, "10", 12 |
| Layers.MoveTo | index.js:362-433 | a move changes only entry `index`, to the new `x`, `y`; length and order are kept; hexes and squares keep their value, dots and images become a bare `{x, y}` |
| Layers.SetValue | index.js:375-392 | an update changes only the value of entry `index` and keeps its position and every other entry |
| Session.NewGame | index.js:268-283 | a new room has an empty roster, no hands, an empty table and a 36-card deck holding the universe without duplicates |
| Session.NewGameLayers | index.js:274-281 | each layer of a new room is the seeded layer, at lengths 6, 10, 18, 14, 14, 10, 7, 3 |
| Session.WithLayer | index.js:362-433 | replacing one layer leaves the other seven layers, the roster, the hands, the table and the deck as they were |
| Session.HandOf | index.js:260 | no contract; a connection without a hand counts as an empty hand, as the count's fallback to an empty list does, and is used by Protocol.CountList |
| Session.HandsBagSplit | index.js:271 | the bag of all hands is any one hand plus the bag of the others |
| Session.HandsBagTake | index.js:324-325 | taking one card out of one hand takes exactly that card out of the bag of all hands |
| Session.TableCardsRemove | index.js:354 | removing table entry `i` removes exactly its card from the table's cards |
| Protocol.CountList | index.js:258-261 | one `{id, count}` per roster entry, in roster order, with the size of that id's hand, or 0 when it has none |
| Protocol.BroadcastHandCounts | index.js:256-263 | nothing when no game is bound; otherwise one room-wide `hand-counts` message with those counts |
| Protocol.CountsRevealOnlySizes | index.js:256-263 | two records with the same roster and the same hand sizes give the same `hand-counts` message, whatever cards the hands hold |
| Protocol.Snapshot | index.js:294-305 | a successful join sends 11 messages, all private to the joiner: the player count, the joiner's own hand, then the table |
| Protocol.SnapshotCoversLayers | index.js:298-305 | the join snapshot carries every one of the eight layers with its current contents |
| Handlers.Draw | index.js:310-316 | an empty deck means no change and no message; otherwise the deck loses exactly its last card; a caller with a hand gets that card appended, then a private hand update and the room's counts; a caller without a hand throws after the pop and sends nothing; roster, table and layers are unchanged |
| Handlers.ShuffleDeck | index.js:317-319 | the deck is permuted (same length and multiset); roster, hands, table and layers are unchanged; nothing is sent |
| Handlers.Play | index.js:322-330 | a caller without a hand throws and changes nothing; otherwise `{card, x, y}` is appended to the table, the first copy of `card` (if any) leaves the caller's hand, the deck is unchanged, and the room gets the table, the caller its hand and the room the counts |
| Handlers.MoveCard | index.js:331-336 | an out-of-range index means no change and no message; otherwise only that entry moves, keeping its card and the table's length, and the room gets the table |
| Handlers.Reinsert | index.js:347-348 | pushing a card and shuffling gives a deck one longer whose multiset gains exactly that card |
| Handlers.ReturnFromHand | index.js:339-349 | a caller without a hand throws and changes nothing; a card not in the hand means no change and no message; otherwise the first copy leaves the hand, the deck gains exactly that card, and the caller gets its hand and the room the counts |
| Handlers.ReturnFromTable | index.js:352-359 | unless the index is in range and holds `card`, no change and no message; otherwise the entry leaves the table, the deck gains exactly that card, and the room gets the table and the counts |
| Handlers.MoveObject | index.js:362-433 | an out-of-range index means no change and no message; otherwise only that layer changes, by `MoveTo`, and the room gets that layer |
| Handlers.UpdateValue | index.js:375-392 | only hexes and squares take updates; an out-of-range index means no change and no message; otherwise only that entry's value changes and the room gets that layer |
| Server.BoundGame | index.js:254 | the record the model binds the connection to in place of its `game` variable: the store's record for its room id, if the connection has joined a room and that id is in the store |
| Server.Opened | index.js:268-284 | `join-room` uses the stored record of a known room and otherwise a fresh record with a new shuffled deck and seeded layers |
| Server.Admit | index.js:291-292 | the joiner is appended to the roster, duplicates included, and gets an empty hand; other hands, table, deck and layers are kept |
| Server.Join | index.js:266-307 | the connection is bound to the room in every case; it throws, with no change and no message, exactly when the room is unknown and its id names an inherited object property; a full room (4 or more players) gives only a private `room-full` and leaves the store unchanged; otherwise the room is created if unknown, the joiner is admitted, and it gets the snapshot and the room the counts |
| Server.Dispatch | index.js:309-433 | every handler other than `join-room` and `disconnect` keeps the roster, and only a sender without a hand can make one throw |
| Server.Leave | index.js:395-402 | an unbound connection changes nothing; otherwise every roster entry of the leaver and its hand are dropped, the room gets the new counts, the room leaves the store exactly when its roster is empty, and no other room changes |
| Server.LeaveDetached | index.js:395-402 | as the source runs `disconnect` on a record that is no longer the room's: the counts sent are those of that record, the room is deleted exactly when that record's roster is empty after the filter, and the store is otherwise unchanged |
| Server.Step | index.js:253-434 | an event other than `join-room` from a connection with no bound game changes nothing and sends nothing; such events never add or remove rooms |
| Conservation.DrawConserves | index.js:310-316 | a completed draw keeps deck + hands + table as the same multiset of cards |
| Conservation.DrawFaultLosesCard | index.js:311-313 | a draw by a connection without a hand throws; at the moment of the throw the record holds every card but the popped one |
| Conservation.ShuffleConserves | index.js:317-319 | shuffling keeps every card |
| Conservation.PlayConservesIffHeld | index.js:322-330 | a play keeps every card exactly when the caller held the card; otherwise the total gains that card |
| Conservation.ReturnFromHandConserves | index.js:339-349 | returning a held card keeps every card |
| Conservation.ReturnFromTableConserves | index.js:352-359 | returning a table card keeps every card |
| Conservation.MoveCardConserves | index.js:331-336 | moving a table card keeps every card |
| Conservation.LeaveDropsHand | index.js:397-398 | a disconnect loses exactly the leaver's hand |
| Conservation.AdmitDropsOldHand | index.js:291-292 | a join loses exactly the joiner's previous hand in that room, if it had one |
| Conservation.NewGameHoldsUniverse | index.js:268-283 | a new room holds exactly the 36 cards of the universe |
| Conservation.DispatchConservesCards | index.js:309-392 | every event except `join-room`, `disconnect` and the play of a card not held keeps the room's cards, for a sender with a hand |
| Conservation.StepConservesCards | index.js:253-434 | the same at the level of the store and the connection's bound room |
| Invariants.DispatchPreservesWf | index.js:309-433 | handlers keep the roster, keep a hand for exactly each roster entry, and keep every layer at its fixed length |
| Invariants.JoinPreservesStoreWf | index.js:266-307 | a join keeps every room at 4 players or fewer, with hands matching the roster, layers at their lengths and a non-empty roster |
| Invariants.LeavePreservesStoreWf | index.js:395-402 | a disconnect keeps the store well formed, and removes any room it empties |
| Invariants.StepPreservesStoreWf | index.js:253-434 | every event keeps the store well formed; in particular no room ever holds more than 4 players |
| Invariants.RosterMemberNeverFaults | index.js:266-433 | a connection on its room's roster never makes a handler throw; a `join-room` throws exactly on an unknown room id naming an inherited property |
| Invariants.RefusedJoinerDrawFaults | index.js:284-313 | the refusal at lines 284-288 and the pop and hand push at lines 311-313: a refused joiner's `draw-card` on a non-empty deck throws after popping; the deck shrinks by one, no hand changes, nothing is sent |
| Invariants.RejectedIffSilent | index.js:311-392 | an event whose guard fails changes nothing and sends nothing; for a sender with a hand, an event other than `shuffle-main-deck` sends nothing only if its guard fails |
| Invariants.JoinRespectsPrivacy | index.js:294-306 | a join sends hand contents only to the joiner, and they are its own hand; the room gets counts of the record after the join |
| Invariants.LeaveRespectsPrivacy | index.js:395-402 | a disconnect sends the room only the counts of the record after it |
| Invariants.HandlersRespectPrivacy | index.js:309-433 | every handler sends hand contents only privately to their owner, and the room only the counts of the resulting record |
| Invariants.MessagesRespectPrivacy | index.js:253-434 | every event respects hand privacy: no message ever shows one player another player's cards |
| Invariants.LeaveEvictsIffLastOut | index.js:397-401 | a disconnect evicts the room exactly when nobody else is on its roster |
| Invariants.DrainEvicts | index.js:395-402 | once every roster entry of a room has disconnected, the room is gone from the store |
| Scenario.TwoJoin | index.js:266-307 | two joins to an unknown room give the roster [A, B] with empty hands, and counts A:0, B:0 |
| Scenario.JoinThenDraw | index.js:266-316 | after the two joins, A's draw moves the deck's top card to A's hand; the deck is down to 35 and the counts read A:1, B:0 |
| Scenario.PlayThenReturn | index.js:322-359 | A plays its one card and takes it back from the table; the hand empties onto the table, the table empties into the deck, and the counts read A:0, B:0 |
| Scenario.DrawPlayReturn | index.js:266-359 | after join, join, draw, play and return, the deck again holds the whole 36-card universe, the table and hands are empty, and the counts read A:0, B:0 |
| Scenario.DrainThenRejoinIsFresh | index.js:266-292 | after everyone on a room's roster has disconnected, the next join to it builds a fresh game: a full new deck, an empty table and only the joiner on the roster; for a room id naming an inherited property the join throws instead |
| Scenario.RefusedJoinerOutlivesRoom | index.js:266-288 | a connection refused from a full room is bound to it with no change to the store, and the room is evicted once its roster has disconnected while that connection stays bound |
| Scenario.SwitchRoomKeepsSeat | index.js:265-292 | a seated player joining another room is rebound to it while its seat and hand in the first room stay unchanged, and its later disconnect still leaves that seat in place |
| Scenario.StaleLeaveEvictsLiveRoom | index.js:395-402 | with a room evicted and re-created by a join of `y`, the source's disconnect of a stale connection on the detached record sends empty counts and deletes the room `y` is in; `Server.Leave` keeps it with `y` on its roster |

## Left out

- The Express static files and the `/rooms` HTML listing page (index.js lines 8 and 14-48) are not modelled. They are HTTP presentation, not room state.
- socket.io transport is not modelled: `socket.join`/`socket.leave`, socket.io rooms and `http.listen`. Messages are an abstract list of (audience, payload) pairs.
- The randomness of `Math.random()` is a parameter. Shuffle results are proved to be permutations, not to follow any distribution.
- The pixel arithmetic of the layout constants and of the `init*` coordinates is the `layout` parameter. Only layer lengths and initial values are fixed.
- Floating-point values are out of scope. Client `x`, `y` and `value` are opaque.
- JSON payload shapes are out of scope. Indices are integers; a non-integer or string index, which JavaScript would coerce, is not modelled.
- Concurrency is not modelled. Node serialises events, and the model applies them one at a time.
- Server.BoundGame, Server.Step: a connection is bound to a room id, and each event acts on that room's current record. In the source a connection keeps a reference to the record it joined. After the room is evicted, a stale connection still acts on the detached old record. Two kinds outlive their room: a refused joiner, and a player admitted to a re-created room whose record a stale `disconnect` then deleted. A refused joiner has no hand in the old record, so its `play-card` and `return-card-from-hand` throw, and so does its `draw-card` on a non-empty deck. The moves of either kind change a record that later joiners, who get a fresh record, never see, although the detached player's broadcasts still go to the room id. The model instead treats it as unbound, with no change and no message. If the room has been re-created, the model binds the stale connection to the new record, as it would a refused joiner. The source then sends the room the old record's contents, and its `disconnect` deletes the live room whenever the old record's roster is empty after the filter (see Findings). A per-connection record reference would express the source's aliasing; the model does not carry one.
- Deck.Shuffle: the result is tied to the given random draws, but nothing is proved about which permutations can occur.

## Findings

| source | as written | input that shows it | evidently intended | confidence | as-written member | corrected member |
|---|---|---|---|---|---|---|
| index.js:395-402 | `disconnect` filters and counts the connection's own record, then deletes the room by id whenever that record's roster is empty, even when the record is no longer the room's | room "R" is full; `x` joins and is refused but stays bound to "R"; the four players disconnect, so "R" is evicted with an empty roster; `y` joins "R" and gets a fresh record; `x` disconnects, and the room gets empty counts and "R" is deleted with `y` still in it | a disconnect acts on the room's current record and never evicts a room that still has a player | not executed | Server.LeaveDetached, Scenario.StaleLeaveEvictsLiveRoom | Server.Leave, Invariants.LeaveEvictsIffLastOut |

=== FILE: basics.dfy ===
/** Small shared vocabulary: an optional value, as for a JavaScript property
    that may be `undefined`. */
module Basics {

  datatype Option<+T> = None | Some(value: T)
}

=== FILE: conservation.dfy ===
/** Card conservation, operation by operation. The bag `AllCards(g)` holds
    the deck, every hand and the table; its size is
    |deck| + (sum of hand sizes) + |table|. Conservation is not a global
    invariant of the server: `play-card` of a card not in hand adds a card,
    and `disconnect`, a repeated `join-room` and a faulting `draw-card`
    drop cards. */
module Conservation {
  import opened Basics
  import opened Seqs
  import opened Deck
  import opened Layers
  import opened Session
  import opened Protocol
  import opened Handlers
  import opened Server

  /** Moving a card from the deck's top onto the caller's hand keeps every
      card. */
  lemma DrawConserves(g: Game, room: RoomId, me: ConnId)
    requires |g.deck| > 0 && me in g.hands
    ensures AllCards(Draw(g, room, me).game) == AllCards(g)
  {
    var e := Draw(g, room, me);
    var c := g.deck[|g.deck| - 1];
    var rest := HandsBag(g.hands - {me});
    HandsBagSplit(g.hands, me);
    HandsBagSet(g.hands, me, g.hands[me] + [c]);
    assert HandsBag(e.game.hands) == multiset(g.hands[me]) + multiset{c} + rest;
    assert multiset(e.game.deck) + multiset{c} == multiset(g.deck);
  }

  /** A draw by a connection without a hand pops the deck and then throws:
      the popped card is in no hand, on no table and not in the deck. */
  lemma DrawFaultLosesCard(g: Game, room: RoomId, me: ConnId)
    requires |g.deck| > 0 && me !in g.hands
    ensures Draw(g, room, me).status == Threw
    ensures AllCards(Draw(g, room, me).game) + multiset{g.deck[|g.deck| - 1]} == AllCards(g)
  {
    var e := Draw(g, room, me);
    assert multiset(e.game.deck) + multiset{g.deck[|g.deck| - 1]} == multiset(g.deck);
  }

  /** Shuffling keeps every card. */
  lemma ShuffleConserves(g: Game, rnd: Rng)
    ensures AllCards(ShuffleDeck(g, rnd).game) == AllCards(g)
  {
  }

  /** Playing keeps the bag exactly when the card was in the caller's hand;
      otherwise the table gains a card that came from nowhere. */
  lemma PlayConservesIffHeld(g: Game, room: RoomId, me: ConnId, card: Card, x: Val, y: Val)
    requires me in g.hands
    ensures AllCards(Play(g, room, me, card, x, y).game) == AllCards(g) <==> card in g.hands[me]
    ensures card !in g.hands[me] ==>
      AllCards(Play(g, room, me, card, x, y).game) == AllCards(g) + multiset{card}
  {
    var e := Play(g, room, me, card, x, y);
    var h := g.hands[me];
    var h' := RemoveFirst(h, card);
    var hb, hb' := HandsBag(g.hands), HandsBag(e.game.hands);
    var d, t := multiset(g.deck), multiset(TableCards(g.table));
    TableCardsAppend(g.table, Placed(card, x, y));
    assert AllCards(g) == d + hb + t;
    assert AllCards(e.game) == d + hb' + (t + multiset{card});
    if card in h {
      HandsBagTake(g.hands, me, h', card);
      assert hb' + multiset{card} == hb;
    } else {
      assert e.game.hands == g.hands;
      assert AllCards(e.game)[card] == AllCards(g)[card] + 1;
    }
  }

  /** Returning a held card to the deck keeps every card. */
  lemma ReturnFromHandConserves(g: Game, room: RoomId, me: ConnId, card: Card, rnd: Rng)
    requires me in g.hands && card in g.hands[me]
    ensures AllCards(ReturnFromHand(g, room, me, card, rnd).game) == AllCards(g)
  {
    var e := ReturnFromHand(g, room, me, card, rnd);
    var hb, hb' := HandsBag(g.hands), HandsBag(e.game.hands);
    HandsBagTake(g.hands, me, RemoveFirst(g.hands[me], card), card);
    assert hb' + multiset{card} == hb;
    assert multiset(e.game.deck) == multiset(g.deck) + multiset{card};
  }

  /** Returning a table card to the deck keeps every card. */
  lemma ReturnFromTableConserves(g: Game, room: RoomId, index: int, card: Card, rnd: Rng)
    requires TableHolds(g, index, card)
    ensures AllCards(ReturnFromTable(g, room, index, card, rnd).game) == AllCards(g)
  {
    TableCardsRemove(g.table, index);
  }

  /** Repositioning a table card keeps every card. */
  lemma MoveCardConserves(g: Game, room: RoomId, index: int, x: Val, y: Val)
    ensures AllCards(MoveCard(g, room, index, x, y).game) == AllCards(g)
  {
    var t := MoveCard(g, room, index, x, y).game.table;
    assert TableCards(t) == TableCards(g.table);
  }

  /** Leaving drops the departing hand and nothing else. */
  lemma LeaveDropsHand(g: Game, me: ConnId)
    ensures AllCards(g.(players := Without(g.players, me), hands := g.hands - {me}))
            + multiset(HandOf(g, me)) == AllCards(g)
  {
    HandsBagRemove(g.hands, me);
  }

  /** A join drops the joiner's previous hand in this room, if it had one. */
  lemma AdmitDropsOldHand(g: Game, me: ConnId)
    ensures AllCards(Admit(g, me)) + multiset(HandOf(g, me)) == AllCards(g)
  {
    HandsBagSet(g.hands, me, []);
    HandsBagRemove(g.hands, me);
    assert HandsBag(Admit(g, me).hands) == HandsBag(g.hands - {me});
  }

  /** A new room holds exactly the card universe. */
  lemma NewGameHoldsUniverse(rnd: Rng, layout: Layout)
    ensures AllCards(NewGame(rnd, layout)) == multiset(Universe())
    ensures |AllCards(NewGame(rnd, layout))| == DeckSize
  {
    var g := NewGame(rnd, layout);
    assert TableCards(g.table) == [];
  }

  /** The events a roster member sends that keep the card bag of its room:
      everything but `join-room`, `disconnect` and the play of a card it
      does not hold. */
  predicate KeepsCards(g: Game, me: ConnId, ev: Event) {
    match ev
    case JoinRoom(_) => false
    case Disconnect => false
    case PlayCard(card, _, _) => me in g.hands && card in g.hands[me]
    case _ => true
  }

  /** Every event that keeps cards leaves the card bag of the game it is
      applied to unchanged, provided the sender has a hand there. */
  lemma DispatchConservesCards(g: Game, room: RoomId, me: ConnId, ev: Event, rnd: Rng)
    requires me in g.hands && KeepsCards(g, me, ev)
    ensures !ev.JoinRoom? && !ev.Disconnect?
    ensures AllCards(Dispatch(g, room, me, ev, rnd).game) == AllCards(g)
  {
    match ev
    case DrawCard =>
      if |g.deck| > 0 { DrawConserves(g, room, me); }
    case ShuffleMainDeck => ShuffleConserves(g, rnd);
    case PlayCard(card, x, y) => PlayConservesIffHeld(g, room, me, card, x, y);
    case MoveTableCard(index, x, y) => MoveCardConserves(g, room, index, x, y);
    case ReturnCardFromHand(card) =>
      if card in g.hands[me] { ReturnFromHandConserves(g, room, me, card, rnd); }
    case ReturnCardFromTable(index, card) =>
      if TableHolds(g, index, card) { ReturnFromTableConserves(g, room, index, card, rnd); }
    case MoveEntry(id, index, x, y) =>
      var g' := MoveObject(g, room, id, index, x, y).game;
      assert g'.table == g.table;
    case UpdateEntry(id, index, v) =>
      var g' := UpdateValue(g, room, id, index, v).game;
      assert g'.table == g.table;
  }

  /** At the level of the whole store: an event that keeps cards leaves the
      bound room's card bag unchanged, provided the sender has a hand there. */
  lemma StepConservesCards(s: Store, ctx: Ctx, me: ConnId, ev: Event, env: Env)
    requires ctx.Some? && ctx.value in s && me in s[ctx.value].hands
    requires KeepsCards(s[ctx.value], me, ev)
    ensures ctx.value in Step(s, ctx, me, ev, env).store
    ensures AllCards(Step(s, ctx, me, ev, env).store[ctx.value]) == AllCards(s[ctx.value])
  {
    DispatchConservesCards(s[ctx.value], ctx.value, me, ev, env.rnd);
  }
}

=== FILE: deck.dfy ===
/** Cards, the main deck and the shuffle helper (index.js lines 91-105).
    A card is the zero-padded decimal name of a number 1..36. */
module Deck {
  import opened Seqs

  type Card = string

  /** One value of `Math.random()`: a real in [0, 1). */
  type Unit = r: real | 0.0 <= r < 1.0

  /** The randomness available to one event: the k-th call of
      `Math.random()` made while handling it returns `rnd(k)`. */
  type Rng = nat -> Unit

  /** Number of cards in a fresh deck. */
  const DeckSize: nat := 36

  /** The swap partner of round `i` (index.js:94): a random unit scaled to
      i + 1 and rounded down, so a position in 0..i. */
  function Pick(u: Unit, i: nat): (j: nat)
    ensures j <= i
  {
    var p := u * (i + 1) as real;
    assert 0.0 <= p < (i + 1) as real;
    p.Floor
  }

  /** Exchange the cards at positions `i` and `j` (index.js:95). */
  function Swap(a: seq<Card>, i: nat, j: nat): (r: seq<Card>)
    requires i < |a| && j < |a|
    ensures |r| == |a| && r[i] == a[j] && r[j] == a[i]
    ensures forall k :: 0 <= k < |a| && k != i && k != j ==> r[k] == a[k]
    ensures multiset(r) == multiset(a)
  {
    a[i := a[j]][j := a[i]]
  }

  /** The Fisher-Yates loop of `shuffle` from position `i` down to 1, where
      `k` calls of `Math.random()` have already been made. */
  function ShuffleFrom(a: seq<Card>, i: nat, rnd: Rng, k: nat): (r: seq<Card>)
    requires i < |a|
    ensures |r| == |a|
    ensures multiset(r) == multiset(a)
    decreases i
  {
    if i == 0 then a
    else ShuffleFrom(Swap(a, i, Pick(rnd(k), i)), i - 1, rnd, k + 1)
  }

  /** `shuffle(arr)`: some permutation of `arr`, chosen by the random draws. */
  function Shuffle(a: seq<Card>, rnd: Rng): (r: seq<Card>)
    ensures |r| == |a|
    ensures multiset(r) == multiset(a)
  {
    if |a| == 0 then a else ShuffleFrom(a, |a| - 1, rnd, 0)
  }

  /** The decimal digit character for `d`. */
  function Digit(d: nat): char
    requires d < 10
  {
    ('0' as int + d) as char
  }

  /** The decimal digits of a natural number, most significant first. */
  function DecimalString(n: nat): (s: string)
    ensures 1 <= |s|
    decreases n
  {
    if n < 10 then [Digit(n)] else DecimalString(n / 10) + [Digit(n % 10)]
  }

  /** A decimal string is all digits, and has one character exactly for the
      numbers below ten. */
  lemma {:induction false} DecimalStringDigits(n: nat)
    ensures |DecimalString(n)| == 1 <==> n < 10
    ensures forall i :: 0 <= i < |DecimalString(n)| ==> '0' <= DecimalString(n)[i] <= '9'
    decreases n
  {
    if n >= 10 {
      DecimalStringDigits(n / 10);
      var s := DecimalString(n);
      var t := DecimalString(n / 10);
      assert s == t + [Digit(n % 10)];
      forall i | 0 <= i < |s|
        ensures '0' <= s[i] <= '9'
      {
        if i < |t| { assert s[i] == t[i]; }
      }
    }
  }

  /** Left-pad `s` with `fill` up to `width` characters; a longer `s` is
      kept as is. */
  function PadStart(s: string, width: nat, fill: char): (r: string)
    ensures |r| == if |s| >= width then |s| else width
    ensures r[|r| - |s|..] == s
    ensures forall i :: 0 <= i < |r| - |s| ==> r[i] == fill
  {
    if |s| >= width then s else seq(width - |s|, _ => fill) + s
  }

  /** The name of card `n` (index.js:103): its decimal digits, padded on
      the left with zeros to two characters. */
  function CardName(n: nat): Card {
    PadStart(DecimalString(n), 2, '0')
  }

  /** Every card name has at least two characters, all decimal digits, and
      a one-digit number gets a leading zero. */
  lemma CardNameIsDigits(n: nat)
    ensures |CardName(n)| >= 2
    ensures n < 10 ==> CardName(n)[0] == '0'
    ensures forall i :: 0 <= i < |CardName(n)| ==> '0' <= CardName(n)[i] <= '9'
  {
    var d := DecimalString(n);
    var r := CardName(n);
    DecimalStringDigits(n);
    forall i | 0 <= i < |r|
      ensures '0' <= r[i] <= '9'
    {
      if i < |r| - |d| {
        assert r[i] == '0';
      } else {
        assert r[i] == r[|r| - |d|..][i - (|r| - |d|)] == d[i - (|r| - |d|)];
      }
    }
  }

  /** For 1..99 a card name is exactly the two decimal digits of the number. */
  lemma CardNameDigits(n: nat)
    requires 1 <= n <= 99
    ensures CardName(n) == [Digit(n / 10), Digit(n % 10)]
  {
    if n >= 10 {
      assert DecimalString(n) == [Digit(n / 10)] + [Digit(n % 10)];
    }
  }

  /** Different numbers in 1..99 give different card names. */
  lemma CardNameInjective(a: nat, b: nat)
    requires 1 <= a <= 99 && 1 <= b <= 99
    ensures CardName(a) == CardName(b) <==> a == b
  {
    CardNameDigits(a);
    CardNameDigits(b);
    if CardName(a) == CardName(b) {
      assert CardName(a)[0] == CardName(b)[0] && CardName(a)[1] == CardName(b)[1];
      assert a == 10 * (a / 10) + a % 10;
      assert b == 10 * (b / 10) + b % 10;
    }
  }

  /** The deck before shuffling: position `i` holds the name of `i + 1`,
      as the creation loop pushes them (index.js:103). */
  function Ordered(n: nat): (d: seq<Card>)
    ensures |d| == n
    ensures forall i :: 0 <= i < n ==> d[i] == CardName(i + 1)
  {
    seq(n, i requires 0 <= i < n => CardName(i + 1))
  }

  /** The fixed card universe "01".."36", in creation order. */
  function Universe(): (u: seq<Card>)
    ensures |u| == DeckSize
    ensures forall i :: 0 <= i < DeckSize ==> u[i] == CardName(i + 1)
  {
    Ordered(DeckSize)
  }

  /** A sequence listing the names of 1, 2, .. (at most 99 of them) has no
      repeated name. */
  lemma NamesDistinct(u: seq<Card>)
    requires |u| <= 99
    requires forall i :: 0 <= i < |u| ==> u[i] == CardName(i + 1)
    ensures Distinct(u)
  {
    forall i, j | 0 <= i < j < |u|
      ensures u[i] != u[j]
    {
      CardNameInjective(i + 1, j + 1);
    }
  }

  /** The first `n` names (n <= 99) are distinct two-character strings. */
  lemma OrderedShape(n: nat)
    requires n <= 99
    ensures Distinct(Ordered(n))
    ensures forall i :: 0 <= i < n ==> |Ordered(n)[i]| == 2
  {
    var u := Ordered(n);
    NamesDistinct(u);
    forall i | 0 <= i < n
      ensures |u[i]| == 2
    {
      assert u[i] == CardName(i + 1);
      CardNameDigits(i + 1);
    }
  }

  /** The universe has 36 distinct two-digit names, from "01" to "36". */
  lemma UniverseShape()
    ensures |Universe()| == 36
    ensures Distinct(Universe())
    ensures Universe()[0] == "01" && Universe()[35] == "36"
    ensures forall i :: 0 <= i < 36 ==> |Universe()[i]| == 2
  {
    OrderedShape(DeckSize);
    var u := Universe();
    assert u[0] == CardName(1) && u[35] == CardName(36);
    FirstAndLastNames();
  }

  /** The names of 1 and 36. */
  lemma FirstAndLastNames()
    ensures CardName(1) == "01" && CardName(36) == "36"
  {
    CardNameDigits(1);
    CardNameDigits(36);
    assert Digit(0) == '0' && Digit(1) == '1' && Digit(3) == '3' && Digit(6) == '6';
  }

  /** `createMainDeck()`: a shuffled deck holding every card of the
      universe exactly once. */
  function CreateMainDeck(rnd: Rng): (d: seq<Card>)
    ensures |d| == DeckSize
    ensures multiset(d) == multiset(Universe())
    ensures Distinct(d)
  {
    var d := Shuffle(Universe(), rnd);
    UniverseShape();
    PermutationKeepsDistinct(d, Universe());
    d
  }
}

=== FILE: handlers.dfy ===
/** The event handlers of one connection, applied to the game record its
    `game` variable is bound to (index.js lines 309-433, except `join-room`
    and `disconnect`, which touch the room store and live in `Server`). */
module Handlers {
  import opened Basics
  import opened Seqs
  import opened Deck
  import opened Layers
  import opened Session
  import opened Protocol

  /** `Threw` marks a handler that raised a TypeError part-way through.
      Nothing in the server catches it, so under Node's default handling
      the process ends and every room with it. The record that comes with
      `Threw` is the state at the moment of the throw, with whatever was
      mutated before it; the server does not go on from it. */
  datatype Status = Completed | Threw

  /** A handler's result: the record afterwards and the messages sent. */
  datatype Effect = Effect(game: Game, out: seq<Msg>, status: Status)

  /** A dropped event: no change, no message. */
  function Ignore(g: Game): Effect {
    Effect(g, [], Completed)
  }

  /** `draw-card`: pop the top of the deck and push it onto the caller's
      hand. A caller with no hand (a refused joiner) makes `push` throw
      after the pop, so the card is lost. */
  function Draw(g: Game, room: RoomId, me: ConnId): (e: Effect)
    ensures |g.deck| == 0 <==> e == Ignore(g)
    ensures |g.deck| > 0 ==> e.game.deck + [g.deck[|g.deck| - 1]] == g.deck
    ensures |g.deck| > 0 && me in g.hands ==>
      && e.status == Completed
      && e.game.hands == g.hands[me := g.hands[me] + [g.deck[|g.deck| - 1]]]
      && e.out == [Msg(ToConn(me), YourHand(e.game.hands[me]))] + BroadcastHandCounts(Some(e.game), room)
    ensures |g.deck| > 0 && me !in g.hands ==> e.status == Threw && e.game.hands == g.hands && e.out == []
    ensures e.game.players == g.players && e.game.table == g.table && SameLayers(e.game, g)
  {
    if |g.deck| == 0 then Ignore(g)
    else
      var c := g.deck[|g.deck| - 1];
      var popped := g.(deck := g.deck[..|g.deck| - 1]);
      assert popped.deck + [c] == g.deck;
      if me !in popped.hands then Effect(popped, [], Threw)
      else
        var g' := popped.(hands := popped.hands[me := popped.hands[me] + [c]]);
        Effect(g', [Msg(ToConn(me), YourHand(g'.hands[me]))] + BroadcastHandCounts(Some(g'), room), Completed)
  }

  /** `shuffle-main-deck`: reorder the deck; nothing is sent. */
  function ShuffleDeck(g: Game, rnd: Rng): (e: Effect)
    ensures e.status == Completed && e.out == []
    ensures |e.game.deck| == |g.deck| && multiset(e.game.deck) == multiset(g.deck)
    ensures e.game.players == g.players && e.game.hands == g.hands && e.game.table == g.table
    ensures SameLayers(e.game, g)
  {
    Effect(g.(deck := Shuffle(g.deck, rnd)), [], Completed)
  }

  /** `play-card`: drop the first copy of `card` from the caller's hand if
      there is one, and place `{card, x, y}` on the table in any case. */
  function Play(g: Game, room: RoomId, me: ConnId, card: Card, x: Val, y: Val): (e: Effect)
    ensures me !in g.hands ==> e == Effect(g, [], Threw)
    ensures me in g.hands ==>
      && e.status == Completed
      && e.game.table == g.table + [Placed(card, x, y)]
      && e.game.hands == g.hands[me := RemoveFirst(g.hands[me], card)]
      && e.game.deck == g.deck
      && e.out == [Msg(ToRoom(room), TableUpdate(e.game.table)), Msg(ToConn(me), YourHand(e.game.hands[me]))]
                  + BroadcastHandCounts(Some(e.game), room)
    ensures e.game.players == g.players && SameLayers(e.game, g)
  {
    if me !in g.hands then Effect(g, [], Threw)
    else
      var g' := g.(hands := g.hands[me := RemoveFirst(g.hands[me], card)],
                   table := g.table + [Placed(card, x, y)]);
      Effect(g',
        [Msg(ToRoom(room), TableUpdate(g'.table)), Msg(ToConn(me), YourHand(g'.hands[me]))]
        + BroadcastHandCounts(Some(g'), room),
        Completed)
  }

  /** `move-table-card`: reposition one table card, keeping the card. */
  function MoveCard(g: Game, room: RoomId, index: int, x: Val, y: Val): (e: Effect)
    ensures !(0 <= index < |g.table|) <==> e == Ignore(g)
    ensures 0 <= index < |g.table| ==>
      && |e.game.table| == |g.table|
      && e.game.table[index] == Placed(g.table[index].card, x, y)
      && (forall k :: 0 <= k < |g.table| && k != index ==> e.game.table[k] == g.table[k])
      && e.out == [Msg(ToRoom(room), TableUpdate(e.game.table))]
    ensures e.status == Completed
    ensures e.game.players == g.players && e.game.hands == g.hands && e.game.deck == g.deck
    ensures SameLayers(e.game, g)
  {
    if !(0 <= index < |g.table|) then Ignore(g)
    else
      var t := g.table[index := g.table[index].(x := x, y := y)];
      Effect(g.(table := t), [Msg(ToRoom(room), TableUpdate(t))], Completed)
  }

  /** Push `card` onto the deck and shuffle it (index.js:347-348): the deck
      gains exactly one copy of `card` and keeps everything else. */
  function Reinsert(deck: seq<Card>, card: Card, rnd: Rng): (d: seq<Card>)
    ensures |d| == |deck| + 1
    ensures multiset(d) == multiset(deck) + multiset{card}
  {
    Shuffle(deck + [card], rnd)
  }

  /** `return-card-from-hand`: move the first copy of `card` from the
      caller's hand back into the deck, then shuffle the deck. */
  function ReturnFromHand(g: Game, room: RoomId, me: ConnId, card: Card, rnd: Rng): (e: Effect)
    ensures me !in g.hands ==> e == Effect(g, [], Threw)
    ensures me in g.hands && card !in g.hands[me] ==> e == Ignore(g)
    ensures me in g.hands && card in g.hands[me] ==>
      && e.status == Completed
      && e.game.hands == g.hands[me := RemoveFirst(g.hands[me], card)]
      && multiset(e.game.deck) == multiset(g.deck) + multiset{card}
      && |e.game.deck| == |g.deck| + 1
      && e.out == [Msg(ToConn(me), YourHand(e.game.hands[me]))] + BroadcastHandCounts(Some(e.game), room)
    ensures e.game.players == g.players && e.game.table == g.table && SameLayers(e.game, g)
  {
    if me !in g.hands then Effect(g, [], Threw)
    else
      var h := g.hands[me];
      var i := IndexOf(h, card);
      if i == -1 then Ignore(g)
      else
        var g1 := g.(hands := g.hands[me := RemoveAt(h, i)]);
        var g2 := g1.(deck := Reinsert(g1.deck, card, rnd));
        CountsRevealOnlySizes(g1, g2, room);
        var out := [Msg(ToConn(me), YourHand(g1.hands[me]))] + BroadcastHandCounts(Some(g1), room);
        Effect(g2, out, Completed)
  }

  /** The guard of `return-card-from-table`: the index names a table entry
      holding exactly `card`. */
  predicate TableHolds(g: Game, index: int, card: Card) {
    0 <= index < |g.table| && g.table[index].card == card
  }

  /** `return-card-from-table`: remove the entry at `index` if it holds
      `card`, put the card back into the deck and shuffle. */
  function ReturnFromTable(g: Game, room: RoomId, index: int, card: Card, rnd: Rng): (e: Effect)
    ensures !TableHolds(g, index, card) ==> e == Ignore(g)
    ensures TableHolds(g, index, card) <==> e.out != []
    ensures TableHolds(g, index, card) ==>
      && e.status == Completed
      && e.game.table == RemoveAt(g.table, index)
      && multiset(e.game.deck) == multiset(g.deck) + multiset{card}
      && |e.game.deck| == |g.deck| + 1
      && e.out == [Msg(ToRoom(room), TableUpdate(e.game.table))] + BroadcastHandCounts(Some(e.game), room)
    ensures e.game.players == g.players && e.game.hands == g.hands && SameLayers(e.game, g)
  {
    if !TableHolds(g, index, card) then Ignore(g)
    else
      var g1 := g.(table := RemoveAt(g.table, index));
      var g2 := g1.(deck := Reinsert(g1.deck, card, rnd));
      CountsRevealOnlySizes(g1, g2, room);
      var out := [Msg(ToRoom(room), TableUpdate(g1.table))] + BroadcastHandCounts(Some(g1), room);
      Effect(g2, out, Completed)
  }

  /** `move-dot`, `move-hex`, `move-square`, `move-image`, `move-c-image`,
      `move-g-image`, `move-cs-image`, `move-d-image`: reposition one entry
      of a layer and send the whole layer to the room. */
  function MoveObject(g: Game, room: RoomId, id: LayerId, index: int, x: Val, y: Val): (e: Effect)
    ensures !(0 <= index < |LayerOf(g, id)|) <==> e == Ignore(g)
    ensures 0 <= index < |LayerOf(g, id)| ==>
      && LayerOf(e.game, id) == MoveTo(id, LayerOf(g, id), index, x, y)
      && e.out == [Msg(ToRoom(room), LayerUpdate(id, LayerOf(e.game, id)))]
    ensures e.status == Completed
    ensures forall other :: other != id ==> LayerOf(e.game, other) == LayerOf(g, other)
    ensures e.game.players == g.players && e.game.hands == g.hands
    ensures e.game.table == g.table && e.game.deck == g.deck
  {
    var l := LayerOf(g, id);
    if !(0 <= index < |l|) then Ignore(g)
    else
      var l' := MoveTo(id, l, index, x, y);
      Effect(WithLayer(g, id, l'), [Msg(ToRoom(room), LayerUpdate(id, l'))], Completed)
  }

  /** `update-hex` and `update-square`: set the value of one entry. The
      other layers have no such handler, so the event is dropped. */
  function UpdateValue(g: Game, room: RoomId, id: LayerId, index: int, v: Val): (e: Effect)
    ensures !(Valued(id) && 0 <= index < |LayerOf(g, id)|) <==> e == Ignore(g)
    ensures Valued(id) && 0 <= index < |LayerOf(g, id)| ==>
      && LayerOf(e.game, id) == SetValue(LayerOf(g, id), index, v)
      && e.out == [Msg(ToRoom(room), LayerUpdate(id, LayerOf(e.game, id)))]
    ensures e.status == Completed
    ensures forall other :: other != id ==> LayerOf(e.game, other) == LayerOf(g, other)
    ensures e.game.players == g.players && e.game.hands == g.hands
    ensures e.game.table == g.table && e.game.deck == g.deck
  {
    var l := LayerOf(g, id);
    if !Valued(id) || !(0 <= index < |l|) then Ignore(g)
    else
      var l' := SetValue(l, index, v);
      Effect(WithLayer(g, id, l'), [Msg(ToRoom(room), LayerUpdate(id, l'))], Completed)
  }
}

=== FILE: invariants.dfy ===
/** What holds of the room store across events: capacity, roster/hand
    agreement, fixed layer lengths, eviction of empty rooms, silent
    rejection of stale or out-of-range events, and hand privacy. */
module Invariants {
  import opened Basics
  import opened Seqs
  import opened Deck
  import opened Layers
  import opened Session
  import opened Protocol
  import opened Handlers
  import opened Server

  /** Every stored room is well formed and has someone in it: a room is in
      the store exactly while its roster is non-empty. */
  ghost predicate StoreWf(s: Store) {
    forall r :: r in s ==> Wf(s[r]) && |s[r].players| > 0
  }

  /** Handlers other than `join-room` and `disconnect` keep the roster, the
      set of hands and every layer length. */
  lemma DispatchPreservesWf(g: Game, room: RoomId, me: ConnId, ev: Event, rnd: Rng)
    requires Wf(g) && !ev.JoinRoom? && !ev.Disconnect?
    ensures Dispatch(g, room, me, ev, rnd).game.players == g.players
    ensures Wf(Dispatch(g, room, me, ev, rnd).game)
  {
    var g' := Dispatch(g, room, me, ev, rnd).game;
    match ev
    case MoveEntry(id, index, x, y) =>
      forall other ensures |LayerOf(g', other)| == Size(other) {
        if other == id && 0 <= index < |LayerOf(g, id)| {
          assert LayerOf(g', id) == MoveTo(id, LayerOf(g, id), index, x, y);
        }
      }
    case UpdateEntry(id, index, v) =>
      forall other ensures |LayerOf(g', other)| == Size(other) {
        if other == id && Valued(id) && 0 <= index < |LayerOf(g, id)| {
          assert LayerOf(g', id) == SetValue(LayerOf(g, id), index, v);
        }
      }
    case _ =>
  }

  /** A new room's record is well formed (before anyone is admitted). */
  lemma NewGameWf(env: Env)
    ensures Wf(NewGame(env.rnd, env.layout))
  {
    NewGameLayers(env.rnd, env.layout);
  }

  /** Dropping every roster entry of `me` leaves a non-empty roster exactly
      when someone else was on it. */
  lemma WithoutEmptyIff(players: seq<ConnId>, me: ConnId)
    ensures Without(players, me) != [] <==> exists p :: p in players && p != me
  {
    var r := Without(players, me);
    if r != [] {
      assert r[0] != me;
      assert multiset(r)[r[0]] > 0;
      assert r[0] in players;
    } else {
      WithoutMembers(players, me);
    }
  }

  /** `Without` keeps exactly the other roster entries. */
  lemma WithoutMembers(players: seq<ConnId>, me: ConnId)
    ensures forall p :: p in Without(players, me) <==> p in players && p != me
  {
    var r := Without(players, me);
    forall p
      ensures p in r <==> p in players && p != me
    {
      if p != me {
        assert multiset(r)[p] == multiset(players)[p];
        assert p in r <==> multiset(r)[p] > 0;
        assert p in players <==> multiset(players)[p] > 0;
      }
    }
  }

  /** `join-room` keeps the store well formed: a refused or throwing join
      changes nothing, an admitted one adds a roster entry and its empty hand to a
      room that had space. */
  lemma JoinPreservesStoreWf(s: Store, me: ConnId, room: RoomId, env: Env)
    requires StoreWf(s)
    ensures StoreWf(Join(s, me, room, env).store)
  {
    var refused := room in s && Full(s[room]);
    if room !in s && room in Inherited {
      assert Join(s, me, room, env).store == s;
    } else if !refused {
      var g := Opened(s, room, env);
      if room !in s { NewGameWf(env); }
      var g' := Admit(g, me);
      assert SameLayers(g', g);
      assert Wf(g');
      assert Join(s, me, room, env).store == s[room := g'];
      StoreWfUpdate(s, room, g');
    }
  }

  /** A record that loses every roster entry and the hand of one
      connection stays well formed. */
  lemma DepartureWf(g: Game, me: ConnId)
    requires Wf(g)
    ensures Wf(g.(players := Without(g.players, me), hands := g.hands - {me}))
  {
    var g' := g.(players := Without(g.players, me), hands := g.hands - {me});
    WithoutMembers(g.players, me);
    assert SameLayers(g', g);
  }

  /** `disconnect` keeps the store well formed: the room loses the
      connection's roster entries and hand, and leaves the store exactly
      when its roster empties. */
  lemma LeavePreservesStoreWf(s: Store, ctx: Ctx, me: ConnId)
    requires StoreWf(s)
    ensures StoreWf(Leave(s, ctx, me).store)
  {
    var o := Leave(s, ctx, me);
    if BoundGame(s, ctx).Some? {
      var r := ctx.value;
      var g := s[r];
      var g' := g.(players := Without(g.players, me), hands := g.hands - {me});
      DepartureWf(g, me);
      if g'.players == [] {
        assert o.store == s - {r};
        StoreWfRemove(s, r);
      } else {
        assert o.store == s[r := g'];
        StoreWfUpdate(s, r, g');
      }
    }
  }

  /** Every event keeps the store well formed: at most four players in a
      room, a hand exactly for each roster entry, all layers at their
      seeded lengths, and no empty room in the store. */
  lemma StepPreservesStoreWf(s: Store, ctx: Ctx, me: ConnId, ev: Event, env: Env)
    requires StoreWf(s)
    ensures StoreWf(Step(s, ctx, me, ev, env).store)
  {
    match ev
    case JoinRoom(room) => JoinPreservesStoreWf(s, me, room, env);
    case Disconnect => LeavePreservesStoreWf(s, ctx, me);
    case _ =>
      if BoundGame(s, ctx).Some? {
        HandlerPreservesStoreWf(s, ctx.value, me, ev, env);
      }
  }

  /** Replacing one room by a well-formed, occupied record keeps the store
      well formed. */
  lemma StoreWfUpdate(s: Store, r: RoomId, g: Game)
    requires StoreWf(s) && Wf(g) && |g.players| > 0
    ensures StoreWf(s[r := g])
  {
  }

  /** Dropping one room keeps the store well formed. */
  lemma StoreWfRemove(s: Store, r: RoomId)
    requires StoreWf(s)
    ensures StoreWf(s - {r})
  {
  }

  /** A handler other than `join-room` and `disconnect` keeps the store
      well formed. */
  lemma HandlerPreservesStoreWf(s: Store, r: RoomId, me: ConnId, ev: Event, env: Env)
    requires StoreWf(s) && r in s && !ev.JoinRoom? && !ev.Disconnect?
    ensures StoreWf(Step(s, Some(r), me, ev, env).store)
  {
    var e := Dispatch(s[r], r, me, ev, env.rnd);
    DispatchPreservesWf(s[r], r, me, ev, env.rnd);
    StepOnBoundRoom(s, r, me, ev, env);
    StoreWfUpdate(s, r, e.game);
  }

  /** A connection on its room's roster never makes a handler throw: those
      faults need a bound connection without a hand, i.e. a refused joiner.
      A `join-room` throws, for any connection, exactly on an unknown room
      id that names an inherited property. */
  lemma RosterMemberNeverFaults(s: Store, ctx: Ctx, me: ConnId, ev: Event, env: Env)
    requires StoreWf(s)
    requires ctx.Some? && ctx.value in s && me in s[ctx.value].players
    ensures !ev.JoinRoom? ==> Step(s, ctx, me, ev, env).status == Completed
    ensures ev.JoinRoom? ==>
      (Step(s, ctx, me, ev, env).status == Threw <==> ev.room !in s && ev.room in Inherited)
  {
  }

  /** A refused joiner's `draw-card` on a non-empty deck throws after the
      pop: the deck shrinks, nobody's hand grows, nothing is sent. */
  lemma RefusedJoinerDrawFaults(s: Store, room: RoomId, me: ConnId, env: Env)
    requires StoreWf(s) && room in s && Full(s[room]) && me !in s[room].players
    requires |s[room].deck| > 0
    ensures var o := Step(s, Some(room), me, DrawCard, env);
      && o.status == Threw && o.out == []
      && room in o.store
      && |o.store[room].deck| == |s[room].deck| - 1
      && o.store[room].hands == s[room].hands
  {
    var o := Step(s, Some(room), me, DrawCard, env);
    assert me !in s[room].hands;
    assert o.store[room] == Draw(s[room], room, me).game;
  }

  /** The guard of each handler failing: an empty deck, a card not in hand,
      a stale or out-of-range table reference, an out-of-range layer index,
      or an update to a layer that has no values. */
  predicate Rejected(g: Game, me: ConnId, ev: Event) {
    match ev
    case DrawCard => |g.deck| == 0
    case ReturnCardFromHand(card) => me in g.hands && card !in g.hands[me]
    case ReturnCardFromTable(index, card) => !TableHolds(g, index, card)
    case MoveTableCard(index, _, _) => !(0 <= index < |g.table|)
    case MoveEntry(id, index, _, _) => !(0 <= index < |LayerOf(g, id)|)
    case UpdateEntry(id, index, _) => !(Valued(id) && 0 <= index < |LayerOf(g, id)|)
    case _ => false
  }

  /** A rejected event changes nothing and sends nothing; and for a sender
      with a hand, an event other than `shuffle-main-deck` (which never
      sends) is silent only when it is rejected. */
  lemma RejectedIffSilent(s: Store, ctx: Ctx, me: ConnId, ev: Event, env: Env)
    requires BoundGame(s, ctx).Some?
    ensures Rejected(s[ctx.value], me, ev) ==> Step(s, ctx, me, ev, env) == Outcome(s, ctx, [], Completed)
    ensures me in s[ctx.value].hands && !ev.JoinRoom? && !ev.ShuffleMainDeck? ==>
      (Step(s, ctx, me, ev, env).out == [] <==> Rejected(s[ctx.value], me, ev))
  {
    var r := ctx.value;
    var g := s[r];
    if Rejected(g, me, ev) {
      assert Dispatch(g, r, me, ev, env.rnd) == Ignore(g);
      assert s[r := g] == s;
    }
  }

  /** Hand contents only ever go to their owner, privately, and are the
      owner's hand as it stands after the event; `hand-counts` goes to the
      room and lists the roster after the event with each hand's size. */
  ghost predicate RespectsPrivacy(o: Outcome, me: ConnId) {
    && (forall m :: m in o.out && m.body.YourHand? ==>
          && m.to == ToConn(me)
          && o.ctx.Some? && o.ctx.value in o.store
          && m.body.cards == HandOf(o.store[o.ctx.value], me))
    && (forall m :: m in o.out && m.body.HandCounts? ==>
          && o.ctx.Some? && m.to == ToRoom(o.ctx.value)
          && m.body.counts == (if o.ctx.value in o.store then CountList(o.store[o.ctx.value]) else []))
  }

  lemma JoinRespectsPrivacy(s: Store, me: ConnId, room: RoomId, env: Env)
    ensures RespectsPrivacy(Join(s, me, room, env), me)
  {
    var o := Join(s, me, room, env);
    if (room in s || room !in Inherited) && !(room in s && Full(s[room])) {
      var g' := o.store[room];
      assert o.out == Snapshot(g', me) + BroadcastHandCounts(Some(g'), room);
      JoinMessagesPrivacy(g', me, room);
    }
  }

  /** The join messages carry the joiner's own hand privately and the
      room's counts to the room, both of the record after the join. */
  lemma JoinMessagesPrivacy(g: Game, me: ConnId, room: RoomId)
    ensures forall m :: m in Snapshot(g, me) + BroadcastHandCounts(Some(g), room) ==>
      && (m.body.YourHand? ==> m.to == ToConn(me) && m.body.cards == HandOf(g, me))
      && (m.body.HandCounts? ==> m.to == ToRoom(room) && m.body.counts == CountList(g))
  {
    var snap := Snapshot(g, me);
    var out := snap + BroadcastHandCounts(Some(g), room);
    forall m | m in out
      ensures m.body.YourHand? ==> m.to == ToConn(me) && m.body.cards == HandOf(g, me)
      ensures m.body.HandCounts? ==> m.to == ToRoom(room) && m.body.counts == CountList(g)
    {
      var i :| 0 <= i < |out| && out[i] == m;
      if i >= 11 {
        assert m == BroadcastHandCounts(Some(g), room)[0];
      } else {
        assert m == snap[i];
      }
    }
  }

  lemma LeaveRespectsPrivacy(s: Store, ctx: Ctx, me: ConnId)
    ensures RespectsPrivacy(Leave(s, ctx, me), me)
  {
    var o := Leave(s, ctx, me);
    if BoundGame(s, ctx).Some? {
      var r := ctx.value;
      var g := s[r];
      var g' := g.(players := Without(g.players, me), hands := g.hands - {me});
      assert o.out == BroadcastHandCounts(Some(g'), r);
      if r !in o.store {
        assert CountList(g') == [];
      }
    }
  }

  /** What a handler sends about hands: contents privately to the sender,
      counts of the resulting record to the room. */
  ghost predicate EffectRespectsPrivacy(e: Effect, room: RoomId, me: ConnId) {
    && (forall m :: m in e.out && m.body.YourHand? ==>
          m.to == ToConn(me) && m.body.cards == HandOf(e.game, me))
    && (forall m :: m in e.out && m.body.HandCounts? ==>
          m.to == ToRoom(room) && m.body.counts == CountList(e.game))
  }

  /** A private hand update followed by the room's hand counts, both taken
      from the resulting record, respects privacy. */
  lemma HandAndCountsRespectPrivacy(e: Effect, room: RoomId, me: ConnId, front: seq<Msg>)
    requires me in e.game.hands
    requires forall m :: m in front ==> !m.body.YourHand? && !m.body.HandCounts?
    requires e.out == front + [Msg(ToConn(me), YourHand(e.game.hands[me]))]
                     + BroadcastHandCounts(Some(e.game), room)
    ensures EffectRespectsPrivacy(e, room, me)
  {
  }

  lemma DrawRespectsPrivacy(g: Game, room: RoomId, me: ConnId)
    ensures EffectRespectsPrivacy(Draw(g, room, me), room, me)
  {
    if |g.deck| > 0 && me in g.hands {
      HandAndCountsRespectPrivacy(Draw(g, room, me), room, me, []);
    }
  }

  lemma PlayRespectsPrivacy(g: Game, room: RoomId, me: ConnId, card: Card, x: Val, y: Val)
    ensures EffectRespectsPrivacy(Play(g, room, me, card, x, y), room, me)
  {
    var e := Play(g, room, me, card, x, y);
    if me in g.hands {
      HandAndCountsRespectPrivacy(e, room, me, [Msg(ToRoom(room), TableUpdate(e.game.table))]);
    }
  }

  lemma ReturnFromHandRespectsPrivacy(g: Game, room: RoomId, me: ConnId, card: Card, rnd: Rng)
    ensures EffectRespectsPrivacy(ReturnFromHand(g, room, me, card, rnd), room, me)
  {
    if me in g.hands && card in g.hands[me] {
      HandAndCountsRespectPrivacy(ReturnFromHand(g, room, me, card, rnd), room, me, []);
    }
  }

  lemma ReturnFromTableRespectsPrivacy(g: Game, room: RoomId, index: int, card: Card, rnd: Rng, me: ConnId)
    ensures EffectRespectsPrivacy(ReturnFromTable(g, room, index, card, rnd), room, me)
  {
    var e := ReturnFromTable(g, room, index, card, rnd);
    if TableHolds(g, index, card) {
      var t := [Msg(ToRoom(room), TableUpdate(e.game.table))];
      assert e.out == t + BroadcastHandCounts(Some(e.game), room);
    }
  }

  lemma HandlersRespectPrivacy(g: Game, room: RoomId, me: ConnId, ev: Event, rnd: Rng)
    requires !ev.JoinRoom? && !ev.Disconnect?
    ensures EffectRespectsPrivacy(Dispatch(g, room, me, ev, rnd), room, me)
  {
    match ev
    case DrawCard => DrawRespectsPrivacy(g, room, me);
    case ShuffleMainDeck =>
    case PlayCard(card, x, y) => PlayRespectsPrivacy(g, room, me, card, x, y);
    case MoveTableCard(index, x, y) =>
    case ReturnCardFromHand(card) => ReturnFromHandRespectsPrivacy(g, room, me, card, rnd);
    case ReturnCardFromTable(index, card) => ReturnFromTableRespectsPrivacy(g, room, index, card, rnd, me);
    case MoveEntry(id, index, x, y) =>
    case UpdateEntry(id, index, v) =>
  }

  lemma DispatchRespectsPrivacy(s: Store, ctx: Ctx, me: ConnId, ev: Event, env: Env)
    requires !ev.JoinRoom? && !ev.Disconnect?
    ensures RespectsPrivacy(Step(s, ctx, me, ev, env), me)
  {
    var o := Step(s, ctx, me, ev, env);
    if BoundGame(s, ctx).Some? {
      var r := ctx.value;
      var e := Dispatch(s[r], r, me, ev, env.rnd);
      HandlersRespectPrivacy(s[r], r, me, ev, env.rnd);
      assert o.store[r] == e.game && o.out == e.out && o.ctx == ctx;
    }
  }

  /** Every event respects hand privacy. */
  lemma MessagesRespectPrivacy(s: Store, ctx: Ctx, me: ConnId, ev: Event, env: Env)
    ensures RespectsPrivacy(Step(s, ctx, me, ev, env), me)
  {
    match ev
    case JoinRoom(room) => JoinRespectsPrivacy(s, me, room, env);
    case Disconnect => LeaveRespectsPrivacy(s, ctx, me);
    case _ => DispatchRespectsPrivacy(s, ctx, me, ev, env);
  }

  /** `disconnect` evicts the room exactly when nobody else is on its
      roster. */
  lemma LeaveEvictsIffLastOut(s: Store, room: RoomId, me: ConnId)
    requires room in s
    ensures room !in Leave(s, Some(room), me).store <==>
      forall p :: p in s[room].players ==> p == me
  {
    WithoutEmptyIff(s[room].players, me);
  }

  /** A sequence all of whose elements lie in an empty sequence is empty. */
  lemma NothingOutsideEmpty(xs: seq<ConnId>, ys: seq<ConnId>)
    ensures (forall p :: p in xs ==> p in ys) && ys == [] ==> xs == []
  {
    if |xs| > 0 && ys == [] {
      assert xs[0] in xs;
    }
  }

  /** The store after each of `conns`, in order, disconnects from `room`. */
  function LeaveAll(s: Store, room: RoomId, conns: seq<ConnId>): Store
    decreases |conns|
  {
    if |conns| == 0 then s
    else LeaveAll(Leave(s, Some(room), conns[0]).store, room, conns[1..])
  }

  /** Once every roster entry of a room has disconnected, the room is gone
      from the store. */
  lemma {:induction false} DrainEvicts(s: Store, room: RoomId, conns: seq<ConnId>)
    requires room in s ==> s[room].players != []
    requires room in s ==> forall p :: p in s[room].players ==> p in conns
    ensures room !in LeaveAll(s, room, conns)
    decreases |conns|
  {
    if |conns| == 0 {
      if room in s {
        NothingOutsideEmpty(s[room].players, conns);
        assert false;
      }
    } else {
      var s' := Leave(s, Some(room), conns[0]).store;
      if room in s {
        WithoutMembers(s[room].players, conns[0]);
        if room in s' {
          forall p | p in s'[room].players
            ensures p in conns[1..]
          {
            assert p in conns && p != conns[0];
          }
        }
      }
      DrainEvicts(s', room, conns[1..]);
    }
  }
}

=== FILE: layers.dfy ===
/** The eight positioned-object layers of a game (dots, hexes, squares and
    five image columns) and the in-place edits the handlers make to them.
    Client-supplied coordinates and values are opaque. */
module Layers {
  import opened Basics

  /** An opaque client value (a coordinate, or a counter's value). */
  datatype Val = Num(n: int) | Text(s: string)

  /** A seeded position. */
  datatype Pos = Pos(x: Val, y: Val)

  /** One entry of a layer: `{x, y}` or `{x, y, value}`. */
  datatype Obj = Obj(x: Val, y: Val, value: Option<Val>)

  /** The layer fields of a game record, in the order they are created. */
  datatype LayerId = Dots | Hexes | Squares | Images | CImages | GImages | CsImages | DImages

  /** The layout seeder: the initial position of entry `i` of a layer. Its
      pixel arithmetic is not part of this model. */
  type Layout = (LayerId, nat) -> Pos

  /** Layer lengths: DOT_COUNT, HEX_COUNT, two rows of the nine square shapes,
      IMAGE_COUNT (twice), G_IMAGE_COUNT, CS_IMAGE_COUNT, D_IMAGE_COUNT. */
  function Size(id: LayerId): nat {
    match id
    case Dots => 6
    case Hexes => 10
    case Squares => 18
    case Images => 14
    case CImages => 14
    case GImages => 10
    case CsImages => 7
    case DImages => 3
  }

  /** The layers whose entries carry a `value`: only they have an `update-*`
      handler, and their `move-*` handler edits `x` and `y` in place instead
      of replacing the entry by `{x, y}`. */
  predicate Valued(id: LayerId) {
    id == Hexes || id == Squares
  }

  /** The `max` of the nine square shapes in a row; the diamond's value is
      the padded string "10", all others are numbers. */
  function ShapeMax(col: nat): Val
    requires col < 9
  {
    [Num(4), Num(6), Num(6), Num(6), Num(6), Num(6), Num(8), Text("10"), Num(12)][col]
  }

  /** Initial `value` of entry `i`: 20 for every hex, the shape's max for
      each square of both rows, none elsewhere. */
  function InitialValue(id: LayerId, i: nat): Option<Val> {
    match id
    case Hexes => Some(Num(20))
    case Squares => Some(ShapeMax(i % 9))
    case _ => None
  }

  /** `initDots()`, `initHexes()`, ...: the seeded layer. */
  function InitLayer(id: LayerId, layout: Layout): (l: seq<Obj>)
    ensures |l| == Size(id)
  {
    seq(Size(id), i requires 0 <= i < Size(id) =>
      Obj(layout(id, i).x, layout(id, i).y, InitialValue(id, i)))
  }

  /** What a fresh layer holds: the seeded positions, a value on every
      entry exactly when the layer is value-bearing, 20 on every hex, and
      the same shape maxima on both rows of squares. */
  lemma InitLayerShape(id: LayerId, layout: Layout)
    ensures forall i :: 0 <= i < |InitLayer(id, layout)| ==>
      InitLayer(id, layout)[i].x == layout(id, i).x && InitLayer(id, layout)[i].y == layout(id, i).y
    ensures forall i :: 0 <= i < |InitLayer(id, layout)| ==>
      (InitLayer(id, layout)[i].value.Some? <==> Valued(id))
    ensures id == Hexes ==> forall i :: 0 <= i < 10 ==> InitLayer(id, layout)[i].value == Some(Num(20))
    ensures id == Squares ==> forall i :: 0 <= i < 9 ==>
      InitLayer(id, layout)[i].value == InitLayer(id, layout)[i + 9].value == Some(ShapeMax(i))
  {
    var l := InitLayer(id, layout);
    forall i | 0 <= i < |l|
      ensures l[i] == Obj(layout(id, i).x, layout(id, i).y, InitialValue(id, i))
    {
    }
    if id == Squares {
      forall i | 0 <= i < 9
        ensures l[i].value == l[i + 9].value == Some(ShapeMax(i))
      {
        assert (i + 9) % 9 == i;
      }
    }
  }

  /** Move entry `index` to (x, y). Dots and images are replaced by a bare
      position (index.js:364, 407); hexes and squares are moved in place and
      keep their value (index.js:371-372, 384-385). */
  function MoveTo(id: LayerId, l: seq<Obj>, index: nat, x: Val, y: Val): (r: seq<Obj>)
    requires index < |l|
    ensures |r| == |l|
    ensures forall k :: 0 <= k < |l| && k != index ==> r[k] == l[k]
    ensures r[index].x == x && r[index].y == y
    ensures Valued(id) ==> r[index].value == l[index].value
    ensures !Valued(id) ==> r[index].value == None
  {
    var o := if Valued(id) then l[index].(x := x, y := y) else Obj(x, y, None);
    l[index := o]
  }

  /** Set the value of entry `index` in place (index.js:377, 390). */
  function SetValue(l: seq<Obj>, index: nat, v: Val): (r: seq<Obj>)
    requires index < |l|
    ensures |r| == |l|
    ensures forall k :: 0 <= k < |l| && k != index ==> r[k] == l[k]
    ensures r[index].x == l[index].x && r[index].y == l[index].y
    ensures r[index].value == Some(v)
  {
    l[index := l[index].(value := Some(v))]
  }
}

=== FILE: protocol.dfy ===
/** Outbound messages: who receives them and what they carry. A private
    message goes to the originating connection only (`socket.emit`); a room
    message goes to every connection joined to the room (`io.in(room).emit`). */
module Protocol {
  import opened Basics
  import opened Deck
  import opened Layers
  import opened Session

  /** A room identifier as sent by `join-room`. */
  type RoomId = string

  datatype Audience = ToConn(conn: ConnId) | ToRoom(room: RoomId)

  /** One `{id, count}` entry of `hand-counts`. */
  datatype HandCount = HandCount(id: ConnId, count: nat)

  /** The outbound events and their payloads. `LayerUpdate(Dots, _)` is
      `dots-update`, `LayerUpdate(Hexes, _)` is `hexes-update`, and so on for
      `squares-`, `images-`, `c-images-`, `g-images-`, `cs-images-` and
      `d-images-update`. */
  datatype Body =
    | RoomFull
    | Joined(count: nat)
    | YourHand(cards: seq<Card>)
    | TableUpdate(table: seq<Placed>)
    | LayerUpdate(layer: LayerId, objs: seq<Obj>)
    | HandCounts(counts: seq<HandCount>)

  datatype Msg = Msg(to: Audience, body: Body)

  /** The `hand-counts` payload (index.js:258-261): for each roster entry,
      in roster order, its id and the size of its hand. */
  function CountList(g: Game): (cs: seq<HandCount>)
    ensures |cs| == |g.players|
    ensures forall i :: 0 <= i < |cs| ==>
      cs[i].id == g.players[i] && cs[i].count == |HandOf(g, g.players[i])|
  {
    seq(|g.players|, i requires 0 <= i < |g.players| =>
      HandCount(g.players[i], |HandOf(g, g.players[i])|))
  }

  /** `broadcastHandCounts()`: nothing when no game is bound, otherwise one
      room-wide `hand-counts` message listing every roster entry in roster
      order with the size of its hand. */
  function BroadcastHandCounts(game: Option<Game>, room: RoomId): (out: seq<Msg>)
    ensures game.None? ==> out == []
    ensures game.Some? ==> |out| == 1 && out[0].to == ToRoom(room) && out[0].body.HandCounts?
    ensures game.Some? ==> |out[0].body.counts| == |game.value.players|
    ensures game.Some? ==> forall i :: 0 <= i < |game.value.players| ==>
      out[0].body.counts[i] == HandCount(game.value.players[i], |HandOf(game.value, game.value.players[i])|)
  {
    match game
    case None => []
    case Some(g) => [Msg(ToRoom(room), HandCounts(CountList(g)))]
  }

  /** Hand counts reveal sizes only: two games with the same roster and the
      same hand sizes produce the same `hand-counts`, whatever the cards. */
  lemma CountsRevealOnlySizes(g1: Game, g2: Game, room: RoomId)
    requires g1.players == g2.players
    requires forall p :: p in g1.players ==> |HandOf(g1, p)| == |HandOf(g2, p)|
    ensures BroadcastHandCounts(Some(g1), room) == BroadcastHandCounts(Some(g2), room)
  {
    assert CountList(g1) == CountList(g2);
  }

  /** The private snapshot sent to a connection that has just joined:
      roster size, its own hand, the table, then every layer in turn. */
  function Snapshot(g: Game, me: ConnId): (out: seq<Msg>)
    ensures |out| == 11
    ensures forall m :: m in out ==> m.to == ToConn(me)
    ensures out[0].body == Joined(|g.players|)
    ensures out[1].body == YourHand(HandOf(g, me))
    ensures out[2].body == TableUpdate(g.table)
  {
    var to := ToConn(me);
    var out := [
      Msg(to, Joined(|g.players|)),
      Msg(to, YourHand(HandOf(g, me))),
      Msg(to, TableUpdate(g.table)),
      Msg(to, LayerUpdate(Dots, g.dots)),
      Msg(to, LayerUpdate(Hexes, g.hexes)),
      Msg(to, LayerUpdate(Squares, g.squares)),
      Msg(to, LayerUpdate(Images, g.images)),
      Msg(to, LayerUpdate(CImages, g.cImages)),
      Msg(to, LayerUpdate(GImages, g.gImages)),
      Msg(to, LayerUpdate(CsImages, g.csImages)),
      Msg(to, LayerUpdate(DImages, g.dImages))
    ];
    out
  }

  /** The snapshot carries every layer of the game: each of the eight
      layers appears, with its current contents, among the payloads. */
  lemma SnapshotCoversLayers(g: Game, me: ConnId)
    ensures forall id :: LayerUpdate(id, LayerOf(g, id)) in Bodies(Snapshot(g, me))
  {
    var bs := Bodies(Snapshot(g, me));
    forall id
      ensures LayerUpdate(id, LayerOf(g, id)) in bs
    {
      match id
      case Dots => assert bs[3] == LayerUpdate(id, LayerOf(g, id));
      case Hexes => assert bs[4] == LayerUpdate(id, LayerOf(g, id));
      case Squares => assert bs[5] == LayerUpdate(id, LayerOf(g, id));
      case Images => assert bs[6] == LayerUpdate(id, LayerOf(g, id));
      case CImages => assert bs[7] == LayerUpdate(id, LayerOf(g, id));
      case GImages => assert bs[8] == LayerUpdate(id, LayerOf(g, id));
      case CsImages => assert bs[9] == LayerUpdate(id, LayerOf(g, id));
      case DImages => assert bs[10] == LayerUpdate(id, LayerOf(g, id));
    }
  }

  /** The payloads of a message list, in order. */
  function Bodies(out: seq<Msg>): (bs: seq<Body>)
    ensures |bs| == |out|
    ensures forall i :: 0 <= i < |out| ==> bs[i] == out[i].body
  {
    seq(|out|, i requires 0 <= i < |out| => out[i].body)
  }
}

=== FILE: scenario.dfy ===
/** A worked session and the room's life cycle end to end: two players
    join a fresh room, one draws, plays the card and sends it back from
    the table; a drained room comes back as a fresh game. */
module Scenario {
  import opened Basics
  import opened Seqs
  import opened Deck
  import opened Layers
  import opened Session
  import opened Protocol
  import opened Handlers
  import opened Server
  import opened Conservation
  import opened Invariants

  /** The `hand-counts` payload of the last message of an event. */
  function LastCounts(o: Outcome): seq<HandCount> {
    if |o.out| > 0 && o.out[|o.out| - 1].body.HandCounts? then o.out[|o.out| - 1].body.counts else []
  }

  /** The card on top of a room's deck, or "" when there is none. */
  function TopCard(s: Store, room: RoomId): Card {
    if room in s && |s[room].deck| > 0 then s[room].deck[|s[room].deck| - 1] else ""
  }

  /** The worked session, event by event, from store `s`: "A" joins room
      "R", "B" joins it, "A" draws, plays the drawn card at (100, 100) and
      returns it from table position 0. */
  function AfterJoins(s: Store, env: Env): Outcome {
    Step(Step(s, None, "A", JoinRoom("R"), env).store, None, "B", JoinRoom("R"), env)
  }

  /** The card "A" draws: the top of the deck after both joins. */
  function Drawn(s: Store, env: Env): Card {
    TopCard(AfterJoins(s, env).store, "R")
  }

  function AfterDraw(s: Store, env: Env): Outcome {
    Step(AfterJoins(s, env).store, Some("R"), "A", DrawCard, env)
  }

  function AfterPlay(s: Store, env: Env): Outcome {
    Step(AfterDraw(s, env).store, Some("R"), "A", PlayCard(Drawn(s, env), Num(100), Num(100)), env)
  }

  function AfterReturn(s: Store, env: Env): Outcome {
    Step(AfterPlay(s, env).store, Some("R"), "A", ReturnCardFromTable(0, Drawn(s, env)), env)
  }

  /** `return-card-from-table` from a bound connection is the table
      handler applied to the room's record. */
  lemma StepReturnFromTable(s: Store, room: RoomId, me: ConnId, index: int, card: Card, env: Env)
    requires room in s
    ensures var e := ReturnFromTable(s[room], room, index, card, env.rnd);
      Step(s, Some(room), me, ReturnCardFromTable(index, card), env) == Outcome(s[room := e.game], Some(room), e.out, e.status)
  {
    StepOnBoundRoom(s, room, me, ReturnCardFromTable(index, card), env);
  }

  /** A join to an unknown room admits the joiner into a new game. */
  lemma JoinUnknownRoom(s: Store, ctx: Ctx, me: ConnId, room: RoomId, env: Env)
    requires room !in s && room !in Inherited
    ensures Step(s, ctx, me, JoinRoom(room), env).store == s[room := Admit(NewGame(env.rnd, env.layout), me)]
  {
  }

  /** A join to a room with space admits the joiner into its game. */
  lemma JoinRoomWithSpace(s: Store, ctx: Ctx, me: ConnId, room: RoomId, env: Env)
    requires room in s && !Full(s[room])
    ensures Step(s, ctx, me, JoinRoom(room), env).store == s[room := Admit(s[room], me)]
    ensures LastCounts(Step(s, ctx, me, JoinRoom(room), env)) == CountList(Admit(s[room], me))
  {
    var g' := Admit(s[room], me);
    assert Step(s, ctx, me, JoinRoom(room), env).out
        == Snapshot(g', me) + [Msg(ToRoom(room), HandCounts(CountList(g')))];
  }

  /** After "A" alone, "B" joins: both are listed with empty hands. */
  lemma SecondJoinCounts(g1: Game)
    requires g1.players == ["A"] && g1.hands == map["A" := []]
    ensures Admit(g1, "B").players == ["A", "B"]
    ensures CountList(Admit(g1, "B")) == [HandCount("A", 0), HandCount("B", 0)]
  {
    var g2 := Admit(g1, "B");
    assert g2.players == ["A", "B"];
  }

  /** Two connections join the unknown room "R": both hold empty hands. */
  lemma TwoJoin(s: Store, env: Env)
    requires "R" !in s
    ensures "R" in AfterJoins(s, env).store
    ensures AfterJoins(s, env).store["R"] == Admit(Admit(NewGame(env.rnd, env.layout), "A"), "B")
    ensures AfterJoins(s, env).store["R"].players == ["A", "B"]
    ensures LastCounts(AfterJoins(s, env)) == [HandCount("A", 0), HandCount("B", 0)]
  {
    var o1 := Step(s, None, "A", JoinRoom("R"), env);
    JoinUnknownRoom(s, None, "A", "R", env);
    var g1 := Admit(NewGame(env.rnd, env.layout), "A");
    assert o1.store == s["R" := g1];
    assert g1.players == ["A"];
    assert "R" in o1.store && !Full(o1.store["R"]);
    JoinRoomWithSpace(o1.store, None, "B", "R", env);
    SecondJoinCounts(g1);
  }

  /** In room "R" with roster [A, B] and empty hands, "A" draws the top
      card of the full deck: A holds it, B holds nothing, the counts read
      A:1, B:0. */
  lemma DrawInTwoPlayerRoom(s: Store, env: Env, o: Outcome)
    requires "R" in s && s["R"].players == ["A", "B"]
    requires s["R"].hands == map["A" := [], "B" := []] && |s["R"].deck| == DeckSize
    requires o == Step(s, Some("R"), "A", DrawCard, env)
    ensures "R" in o.store && o.status == Completed
    ensures o.store["R"].players == ["A", "B"]
    ensures o.store["R"].hands == map["A" := [TopCard(s, "R")], "B" := []]
    ensures o.store["R"].table == s["R"].table
    ensures |o.store["R"].deck| == DeckSize - 1
    ensures multiset(o.store["R"].deck) + multiset{TopCard(s, "R")} == multiset(s["R"].deck)
    ensures LastCounts(o) == [HandCount("A", 1), HandCount("B", 0)]
  {
    StepOnBoundRoom(s, "R", "A", DrawCard, env);
    var g := s["R"];
    var e := Draw(g, "R", "A");
    var top := TopCard(s, "R");
    assert top == g.deck[|g.deck| - 1];
    assert e.game.deck + [top] == g.deck;
    assert g.hands["A"] + [top] == [top];
    assert e.game.hands == g.hands["A" := [top]];
    assert e.game.hands == map["A" := [top], "B" := []];
    var cs := CountList(e.game);
    assert cs == [HandCount("A", 1), HandCount("B", 0)];
    assert e.out[|e.out| - 1] == Msg(ToRoom("R"), HandCounts(cs));
  }

  /** "A" plays the one card it holds: its hand empties and the card is
      the last entry of the table; the counts read A:0, B:0. */
  lemma PlayInTwoPlayerRoom(s: Store, env: Env, c: Card, o: Outcome)
    requires "R" in s && s["R"].players == ["A", "B"]
    requires s["R"].hands == map["A" := [c], "B" := []]
    requires o == Step(s, Some("R"), "A", PlayCard(c, Num(100), Num(100)), env)
    ensures "R" in o.store && o.status == Completed
    ensures o.store["R"].players == ["A", "B"]
    ensures o.store["R"].hands == map["A" := [], "B" := []]
    ensures o.store["R"].table == s["R"].table + [Placed(c, Num(100), Num(100))]
    ensures o.store["R"].deck == s["R"].deck
    ensures LastCounts(o) == [HandCount("A", 0), HandCount("B", 0)]
  {
    StepOnBoundRoom(s, "R", "A", PlayCard(c, Num(100), Num(100)), env);
    var g := s["R"];
    var e := Play(g, "R", "A", c, Num(100), Num(100));
    assert RemoveFirst([c], c) == [];
    assert e.game.hands == map["A" := [], "B" := []];
    var cs := CountList(e.game);
    assert cs == [HandCount("A", 0), HandCount("B", 0)];
    assert e.out[|e.out| - 1] == Msg(ToRoom("R"), HandCounts(cs));
  }

  /** The only card on the table goes back into the deck: the table
      empties, the deck grows by that card, the counts read A:0, B:0. */
  lemma ReturnOnlyTableCard(g: Game, c: Card, rnd: Rng)
    requires g.players == ["A", "B"] && g.hands == map["A" := [], "B" := []]
    requires g.table == [Placed(c, Num(100), Num(100))]
    ensures var e := ReturnFromTable(g, "R", 0, c, rnd);
      && e.status == Completed
      && e.game.table == [] && e.game.hands == g.hands
      && |e.game.deck| == |g.deck| + 1
      && multiset(e.game.deck) == multiset(g.deck) + multiset{c}
      && e.out[|e.out| - 1] == Msg(ToRoom("R"), HandCounts([HandCount("A", 0), HandCount("B", 0)]))
  {
    assert TableHolds(g, 0, c);
    var e := ReturnFromTable(g, "R", 0, c, rnd);
    assert e.game.table == RemoveAt(g.table, 0) == [];
    PairCounts(e.game, []);
    assert e.out[|e.out| - 1] == Msg(ToRoom("R"), HandCounts(CountList(e.game)));
  }

  /** The counts of the room [A, B] where only A may hold cards. */
  lemma PairCounts(g: Game, a: seq<Card>)
    requires g.players == ["A", "B"] && g.hands == map["A" := a, "B" := []]
    ensures CountList(g) == [HandCount("A", |a|), HandCount("B", 0)]
  {
    assert HandOf(g, "A") == a && HandOf(g, "B") == [];
  }

  /** The same return as a server step in room "R". */
  lemma ReturnInTwoPlayerRoom(s: Store, env: Env, c: Card)
    requires "R" in s && s["R"].players == ["A", "B"]
    requires s["R"].hands == map["A" := [], "B" := []]
    requires s["R"].table == [Placed(c, Num(100), Num(100))]
    ensures var o := Step(s, Some("R"), "A", ReturnCardFromTable(0, c), env);
      && "R" in o.store && o.status == Completed
      && o.store["R"].table == []
      && o.store["R"].hands == s["R"].hands
      && |o.store["R"].deck| == |s["R"].deck| + 1
      && multiset(o.store["R"].deck) == multiset(s["R"].deck) + multiset{c}
      && LastCounts(o) == [HandCount("A", 0), HandCount("B", 0)]
  {
    StepReturnFromTable(s, "R", "A", 0, c, env);
    ReturnOnlyTableCard(s["R"], c, env.rnd);
  }

  /** A new game with "A" and then "B" admitted: both hold empty hands,
      the table is empty and the deck is the new game's full deck. */
  lemma JoinedPairShape(g0: Game, g2: Game)
    requires g0.players == [] && g0.hands == map[] && g0.table == []
    requires g2 == Admit(Admit(g0, "A"), "B")
    ensures g2.players == ["A", "B"] && g2.hands == map["A" := [], "B" := []]
    ensures g2.table == [] && g2.deck == g0.deck
  {
  }

  /** "A" joins the unknown room "R", "B" joins it and "A" draws the top
      card `c` of the new game's full deck: A holds [c], B holds nothing,
      the deck is down to 35 and the room's counts read A:1, B:0. */
  lemma JoinThenDraw(s: Store, env: Env)
    requires "R" !in s
    ensures var o2, o3, c := AfterJoins(s, env), AfterDraw(s, env), Drawn(s, env);
      && "R" in o2.store && "R" in o3.store && o3.status == Completed
      && |o2.store["R"].deck| == 36
      && LastCounts(o2) == [HandCount("A", 0), HandCount("B", 0)]
      && o3.store["R"].players == ["A", "B"] && o3.store["R"].hands == map["A" := [c], "B" := []]
      && o3.store["R"].table == [] && |o3.store["R"].deck| == 35
      && multiset(o3.store["R"].deck) + multiset{c} == multiset(Universe())
      && LastCounts(o3) == [HandCount("A", 1), HandCount("B", 0)]
  {
    var o2 := AfterJoins(s, env);
    TwoJoin(s, env);
    var g0 := NewGame(env.rnd, env.layout);
    JoinedPairShape(g0, o2.store["R"]);
    DrawInTwoPlayerRoom(o2.store, env, AfterDraw(s, env));
  }

  /** In room "R" where "A" holds the single card `c` and the table is
      empty, "A" plays `c` at (100, 100) and returns it from table
      position 0. The play empties A's hand onto the table (counts A:0,
      B:0); the return empties the table and puts `c` back in the deck. */
  lemma PlayThenReturn(s: Store, env: Env, c: Card)
    requires "R" in s && s["R"].players == ["A", "B"]
    requires s["R"].hands == map["A" := [c], "B" := []] && s["R"].table == []
    ensures var o4 := Step(s, Some("R"), "A", PlayCard(c, Num(100), Num(100)), env);
      var o5 := Step(o4.store, Some("R"), "A", ReturnCardFromTable(0, c), env);
      && "R" in o4.store && "R" in o5.store
      && o4.status == o5.status == Completed
      && o4.store["R"].hands["A"] == [] && o4.store["R"].table == [Placed(c, Num(100), Num(100))]
      && LastCounts(o4) == [HandCount("A", 0), HandCount("B", 0)]
      && o5.store["R"].table == [] && o5.store["R"].hands == map["A" := [], "B" := []]
      && |o5.store["R"].deck| == |s["R"].deck| + 1
      && multiset(o5.store["R"].deck) == multiset(s["R"].deck) + multiset{c}
      && LastCounts(o5) == [HandCount("A", 0), HandCount("B", 0)]
  {
    var o4 := Step(s, Some("R"), "A", PlayCard(c, Num(100), Num(100)), env);
    PlayInTwoPlayerRoom(s, env, c, o4);
    ReturnInTwoPlayerRoom(o4.store, env, c);
  }

  /** The whole session: join, join, draw, play, return. The card drawn
      comes back, so the deck again holds the whole card universe, the
      table and every hand are empty, and the room's last counts read
      A:0, B:0. */
  lemma DrawPlayReturn(s: Store, env: Env)
    requires "R" !in s
    ensures var o5 := AfterReturn(s, env);
      && "R" in o5.store && o5.status == Completed
      && o5.store["R"].table == [] && o5.store["R"].hands == map["A" := [], "B" := []]
      && |o5.store["R"].deck| == DeckSize
      && multiset(o5.store["R"].deck) == multiset(Universe())
      && LastCounts(o5) == [HandCount("A", 0), HandCount("B", 0)]
  {
    JoinThenDraw(s, env);
    PlayThenReturn(AfterDraw(s, env).store, env, Drawn(s, env));
  }

  /** After everyone on a room's roster has disconnected, the next
      `join-room` for it builds a fresh game: a new full deck holding the
      card universe, an empty table, and only the joiner on the roster.
      A room id naming an inherited property throws instead. */
  lemma DrainThenRejoinIsFresh(s: Store, room: RoomId, conns: seq<ConnId>, me: ConnId, env: Env)
    requires StoreWf(s)
    requires room in s ==> forall p :: p in s[room].players ==> p in conns
    ensures var o := Step(LeaveAll(s, room, conns), None, me, JoinRoom(room), env);
      room in Inherited ==> o.status == Threw && room !in o.store
    ensures var o := Step(LeaveAll(s, room, conns), None, me, JoinRoom(room), env);
      room !in Inherited ==>
      && room in o.store
      && o.store[room] == Admit(NewGame(env.rnd, env.layout), me)
      && o.store[room].players == [me] && o.store[room].table == []
      && AllCards(o.store[room]) == multiset(Universe())
  {
    DrainEvicts(s, room, conns);
    var g := NewGame(env.rnd, env.layout);
    NewGameHoldsUniverse(env.rnd, env.layout);
    AdmitDropsOldHand(g, me);
  }

  /** A connection refused from the full room "R" stays bound to it and
      outlives the room: once the players on its roster have disconnected,
      "R" is evicted while the refused connection is still bound to "R". */
  lemma RefusedJoinerOutlivesRoom(s: Store, x: ConnId, conns: seq<ConnId>, env: Env)
    requires StoreWf(s) && "R" in s && Full(s["R"])
    requires forall p :: p in s["R"].players ==> p in conns
    ensures var o := Step(s, None, x, JoinRoom("R"), env);
      && o.ctx == Some("R") && o.store == s && o.out == [Msg(ToConn(x), RoomFull)]
      && "R" !in LeaveAll(o.store, "R", conns)
  {
    DrainEvicts(s, "R", conns);
  }

  /** The stale disconnect. Room "R" was evicted with the empty roster of
      `stale`, the record a refused connection `x` still refers to, and `y`
      has since joined "R" and got a fresh record. As the source runs it,
      `x` disconnecting acts on `stale`: it tells the room that nobody holds
      cards and deletes the room `y` is playing in. `Leave`, which acts on
      the room's current record, keeps the room and `y` on its roster. */
  lemma StaleLeaveEvictsLiveRoom(s: Store, stale: Game, x: ConnId, y: ConnId, env: Env)
    requires "R" !in s && stale.players == [] && x != y
    ensures var o := Step(s, None, y, JoinRoom("R"), env);
      && "R" in o.store && o.store["R"].players == [y]
      && "R" !in LeaveDetached(o.store, "R", stale, x).store
      && LeaveDetached(o.store, "R", stale, x).out == [Msg(ToRoom("R"), HandCounts([]))]
      && "R" in Leave(o.store, Some("R"), x).store
      && Leave(o.store, Some("R"), x).store["R"].players == [y]
  {
    var o := Step(s, None, y, JoinRoom("R"), env);
    JoinUnknownRoom(s, None, y, "R", env);
    assert o.store["R"].players == [y];
    assert Without([y], x) == [y];
  }

  /** The ghost seat. A seated player that joins another room is rebound to
      it but keeps its roster entry and hand in the first room, and its later
      disconnect filters only the second room, so the first keeps the seat
      for good: it counts towards the capacity and stops the room from
      being evicted. */
  lemma SwitchRoomKeepsSeat(s: Store, me: ConnId, r1: RoomId, r2: RoomId, env: Env)
    requires r1 in s && r1 != r2 && me in s[r1].players
    ensures var o := Step(s, Some(r1), me, JoinRoom(r2), env);
      && o.ctx == Some(r2)
      && r1 in o.store && o.store[r1] == s[r1]
      && var l := Step(o.store, o.ctx, me, Disconnect, env);
         r1 in l.store && l.store[r1] == s[r1] && me in l.store[r1].players
  {
    var o := Step(s, Some(r1), me, JoinRoom(r2), env);
    assert r1 in o.store && o.store[r1] == s[r1];
  }
}

=== FILE: seqs.dfy ===
/** Sequence helpers mirroring the JavaScript array operations the server
    uses: the first index of a value, removal of one position, and removal
    of every copy of a value. */
module Seqs {

  /** No element occurs twice. */
  ghost predicate Distinct<T>(s: seq<T>) {
    forall i, j :: 0 <= i < j < |s| ==> s[i] != s[j]
  }

  /** `Array.prototype.indexOf`: the first position holding `x`, or -1. */
  function IndexOf<T(==)>(s: seq<T>, x: T): (i: int)
    ensures -1 <= i < |s|
    ensures i == -1 <==> x !in s
    ensures 0 <= i ==> s[i] == x && x !in s[..i]
  {
    if |s| == 0 then -1
    else if s[0] == x then 0
    else
      var j := IndexOf(s[1..], x);
      assert s[1..][..if j < 0 then 0 else j] == s[1..if j < 0 then 1 else j + 1];
      if j == -1 then -1 else j + 1
  }

  /** `splice(i, 1)`: drop the element at position `i`. */
  function RemoveAt<T>(s: seq<T>, i: nat): (r: seq<T>)
    requires i < |s|
    ensures |r| == |s| - 1
    ensures forall k :: 0 <= k < i ==> r[k] == s[k]
    ensures forall k :: i <= k < |r| ==> r[k] == s[k + 1]
    ensures multiset(r) + multiset{s[i]} == multiset(s)
  {
    assert s == s[..i] + [s[i]] + s[i + 1..];
    s[..i] + s[i + 1..]
  }

  /** Drop the first occurrence of `x`, if there is one, keeping the rest in
      order (index.js:324-325 and 342-344). */
  function RemoveFirst<T(==)>(s: seq<T>, x: T): (r: seq<T>)
    ensures x !in s ==> r == s
    ensures x in s ==> |r| == |s| - 1 && multiset(r) + multiset{x} == multiset(s)
    ensures x in s ==> exists i :: 0 <= i < |s| && s[i] == x && x !in s[..i] && r == s[..i] + s[i + 1..]
  {
    var i := IndexOf(s, x);
    if i == -1 then s
    else
      assert RemoveAt(s, i) == s[..i] + s[i + 1..];
      RemoveAt(s, i)
  }

  /** Drop every occurrence of `x` and keep the rest in order
      (index.js:397). */
  function Without<T(==, !new)>(s: seq<T>, x: T): (r: seq<T>)
    ensures |r| <= |s|
    ensures x !in r
    ensures forall y :: y != x ==> multiset(r)[y] == multiset(s)[y]
    ensures x !in s ==> r == s
  {
    if |s| == 0 then []
    else
      assert s == [s[0]] + s[1..];
      if s[0] == x then Without(s[1..], x) else [s[0]] + Without(s[1..], x)
  }

  /** Dropping a value distributes over concatenation, so the survivors keep
      their relative order. */
  lemma {:induction false} WithoutAppend<T(!new)>(a: seq<T>, b: seq<T>, x: T)
    ensures Without(a + b, x) == Without(a, x) + Without(b, x)
    decreases |a|
  {
    if |a| == 0 {
      assert a + b == b;
    } else {
      assert (a + b)[0] == a[0];
      assert (a + b)[1..] == a[1..] + b;
      WithoutAppend(a[1..], b, x);
    }
  }

  /** On one element, dropping `x` keeps it exactly when it differs from `x`. */
  lemma WithoutSingleton<T(!new)>(y: T, x: T)
    ensures Without([y], x) == if y == x then [] else [y]
  {
    assert [y][1..] == [];
  }

  /** Distinctness, stated through element counts. */
  lemma {:induction false} DistinctIffSingleCounts<T>(s: seq<T>)
    ensures Distinct(s) <==> forall x :: multiset(s)[x] <= 1
  {
    if |s| == 0 {
    } else {
      var t, last := s[..|s| - 1], s[|s| - 1];
      assert s == t + [last];
      DistinctIffSingleCounts(t);
      if Distinct(s) {
        assert Distinct(t);
        assert last !in multiset(t);
      } else {
        var i, j :| 0 <= i < j < |s| && s[i] == s[j];
        if j < |s| - 1 {
          assert t[i] == t[j];
          assert !Distinct(t);
          var x :| multiset(t)[x] > 1;
          assert multiset(s) == multiset(t) + multiset{last};
          assert multiset(s)[x] > 1;
        } else {
          assert t[i] == last;
          assert multiset(s)[last] == multiset(t)[last] + 1;
        }
      }
    }
  }

  /** A permutation of a duplicate-free sequence is duplicate-free. */
  lemma PermutationKeepsDistinct<T>(a: seq<T>, b: seq<T>)
    requires multiset(a) == multiset(b)
    requires Distinct(b)
    ensures Distinct(a)
  {
    DistinctIffSingleCounts(a);
    DistinctIffSingleCounts(b);
  }
}

=== FILE: server.dfy ===
/** The room store and one connection's event dispatch (index.js lines 11,
    253-434): `join-room` creates or finds the room's game, `disconnect`
    leaves it and evicts an empty room, every other event goes to its
    handler on the game the connection is bound to. */
module Server {
  import opened Basics
  import opened Seqs
  import opened Deck
  import opened Layers
  import opened Session
  import opened Protocol
  import opened Handlers

  /** `games`: room id to game record. */
  type Store = map<RoomId, Game>

  /** The connection's `room` variable: the room of its last `join-room`,
      set even when that join was refused. Its `game` variable is the
      store's record for that room. */
  type Ctx = Option<RoomId>

  /** What an event may consume besides the store: `Math.random()` and the
      layout seeder used when a room is created. */
  datatype Env = Env(rnd: Rng, layout: Layout)

  /** The inbound events. `MoveEntry(Dots, ..)` is `move-dot`,
      `MoveEntry(Hexes, ..)` is `move-hex`, and so on for `move-square`,
      `move-image`, `move-c-image`, `move-g-image`, `move-cs-image` and
      `move-d-image`; `UpdateEntry(Hexes, ..)` is `update-hex` and
      `UpdateEntry(Squares, ..)` is `update-square`. */
  datatype Event =
    | JoinRoom(room: RoomId)
    | DrawCard
    | ShuffleMainDeck
    | PlayCard(card: Card, x: Val, y: Val)
    | MoveTableCard(index: int, x: Val, y: Val)
    | ReturnCardFromHand(card: Card)
    | ReturnCardFromTable(index: int, card: Card)
    | MoveEntry(layer: LayerId, index: int, x: Val, y: Val)
    | UpdateEntry(layer: LayerId, index: int, value: Val)
    | Disconnect

  /** The store, the connection's context and the messages sent, after one
      event. */
  datatype Outcome = Outcome(store: Store, ctx: Ctx, out: seq<Msg>, status: Status)

  /** The game record a connection's `game` variable refers to, if any. */
  function BoundGame(s: Store, ctx: Ctx): (g: Option<Game>)
    ensures g.Some? <==> ctx.Some? && ctx.value in s
    ensures g.Some? ==> g.value == s[ctx.value]
  {
    if ctx.Some? && ctx.value in s then Some(s[ctx.value]) else None
  }

  /** The room already has `Capacity` or more roster entries (index.js:286). */
  predicate Full(g: Game) {
    |g.players| >= Capacity
  }

  /** The room's game, created when the room is unknown. */
  function Opened(s: Store, room: RoomId, env: Env): (g: Game)
    ensures room in s ==> g == s[room]
    ensures room !in s ==> g == NewGame(env.rnd, env.layout)
  {
    if room in s then s[room] else NewGame(env.rnd, env.layout)
  }

  /** A successful join: append the connection to the roster and give it an
      empty hand (replacing any hand it already had). */
  function Admit(g: Game, me: ConnId): (g': Game)
    ensures g'.players == g.players + [me]
    ensures me in g'.hands && g'.hands[me] == []
    ensures forall p :: p != me ==> (p in g'.hands <==> p in g.hands)
    ensures forall p :: p != me && p in g.hands ==> g'.hands[p] == g.hands[p]
    ensures g'.table == g.table && g'.deck == g.deck && SameLayers(g', g)
  {
    g.(players := g.players + [me], hands := g.hands[me := []])
  }

  /** The names a plain JavaScript object inherits from `Object.prototype`.
      Looking one of them up in `games` (index.js:11) finds the inherited
      function or prototype object: it counts as present, so no room is
      created, and it has no roster. */
  const Inherited: set<RoomId> := {
    "constructor", "__proto__", "__defineGetter__", "__defineSetter__",
    "__lookupGetter__", "__lookupSetter__", "hasOwnProperty", "isPrototypeOf",
    "propertyIsEnumerable", "toString", "toLocaleString", "valueOf"
  }

  /** `join-room`: bind the connection to the room whatever happens. An
      unknown room id naming an inherited property throws when its roster
      length is read (index.js:268, 284, 286), before any change or message.
      A full room is refused with a private `room-full` and no change.
      Otherwise the connection is admitted, gets the snapshot, and the room
      gets its hand counts. */
  function Join(s: Store, me: ConnId, room: RoomId, env: Env): (o: Outcome)
    ensures o.ctx == Some(room)
    ensures o.status == Threw <==> room !in s && room in Inherited
    ensures o.status == Threw ==> o.store == s && o.out == []
    ensures room in s && Full(s[room]) ==> o.store == s && o.out == [Msg(ToConn(me), RoomFull)]
    ensures (room in s || room !in Inherited) && !(room in s && Full(s[room])) ==>
      && o.store == s[room := Admit(Opened(s, room, env), me)]
      && o.out == Snapshot(o.store[room], me) + BroadcastHandCounts(Some(o.store[room]), room)
  {
    if room !in s && room in Inherited then
      Outcome(s, Some(room), [], Threw)
    else
      var s0 := s[room := Opened(s, room, env)];
      var g := s0[room];
      if Full(g) then
        assert s0 == s;
        Outcome(s0, Some(room), [Msg(ToConn(me), RoomFull)], Completed)
      else
        var g' := Admit(g, me);
        Outcome(s[room := g'], Some(room), Snapshot(g', me) + BroadcastHandCounts(Some(g'), room), Completed)
  }

  /** `disconnect`: drop every roster entry of the connection and its hand
      (the cards are not returned), tell the room the new hand counts, and
      evict the room once its roster is empty. */
  function Leave(s: Store, ctx: Ctx, me: ConnId): (o: Outcome)
    ensures o.ctx == ctx && o.status == Completed
    ensures BoundGame(s, ctx).None? ==> o.store == s && o.out == []
    ensures BoundGame(s, ctx).Some? ==>
      var r := ctx.value;
      var g' := s[r].(players := Without(s[r].players, me), hands := s[r].hands - {me});
      && o.out == BroadcastHandCounts(Some(g'), r)
      && (r in o.store <==> g'.players != [])
      && (r in o.store ==> o.store[r] == g')
      && (forall other :: other != r ==> (other in o.store <==> other in s))
      && (forall other :: other != r && other in s ==> o.store[other] == s[other])
  {
    match BoundGame(s, ctx)
    case None => Outcome(s, ctx, [], Completed)
    case Some(g) =>
      var r := ctx.value;
      var g' := g.(players := Without(g.players, me), hands := g.hands - {me});
      var out := BroadcastHandCounts(Some(g'), r);
      if |g'.players| == 0 then Outcome(s - {r}, ctx, out, Completed)
      else Outcome(s[r := g'], ctx, out, Completed)
  }

  /** `disconnect` as index.js:395-402 runs it when the connection's own
      record `own` is no longer the room's record: the room was evicted after
      the connection was bound to it, and possibly re-created by a later
      join. The roster filter and the hand deletion change only `own`, the
      counts sent are those of `own`, and the room id alone decides what is
      deleted from the store. `Leave` is the intended behaviour, on the
      room's current record. */
  function LeaveDetached(s: Store, room: RoomId, own: Game, me: ConnId): (o: Outcome)
    ensures o.ctx == Some(room) && o.status == Completed
    ensures o.out == BroadcastHandCounts(Some(own.(players := Without(own.players, me), hands := own.hands - {me})), room)
    ensures room in o.store <==> room in s && Without(own.players, me) != []
    ensures forall other :: other != room ==> (other in o.store <==> other in s)
    ensures forall other :: other in o.store ==> o.store[other] == s[other]
  {
    var own' := own.(players := Without(own.players, me), hands := own.hands - {me});
    var out := BroadcastHandCounts(Some(own'), room);
    if |own'.players| == 0 then Outcome(s - {room}, Some(room), out, Completed)
    else Outcome(s, Some(room), out, Completed)
  }

  /** The handler of an event other than `join-room` and `disconnect`. */
  function Dispatch(g: Game, room: RoomId, me: ConnId, ev: Event, rnd: Rng): (e: Effect)
    requires !ev.JoinRoom? && !ev.Disconnect?
    ensures e.game.players == g.players
    ensures e.status == Threw ==> me !in g.hands
  {
    match ev
    case DrawCard => Draw(g, room, me)
    case ShuffleMainDeck => ShuffleDeck(g, rnd)
    case PlayCard(card, x, y) => Play(g, room, me, card, x, y)
    case MoveTableCard(index, x, y) => MoveCard(g, room, index, x, y)
    case ReturnCardFromHand(card) => ReturnFromHand(g, room, me, card, rnd)
    case ReturnCardFromTable(index, card) => ReturnFromTable(g, room, index, card, rnd)
    case MoveEntry(id, index, x, y) => MoveObject(g, room, id, index, x, y)
    case UpdateEntry(id, index, v) => UpdateValue(g, room, id, index, v)
  }

  /** One event from connection `me` in context `ctx`. An outcome with
      status `Threw` is the last state of the process, not a state later
      events start from. Every handler other
      than `join-room` first returns when the connection has no game. */
  function Step(s: Store, ctx: Ctx, me: ConnId, ev: Event, env: Env): (o: Outcome)
    ensures !ev.JoinRoom? ==> o.ctx == ctx
    ensures !ev.JoinRoom? && BoundGame(s, ctx).None? ==> o == Outcome(s, ctx, [], Completed)
    ensures !ev.JoinRoom? && !ev.Disconnect? ==> o.store.Keys == s.Keys
  {
    match ev
    case JoinRoom(room) => Join(s, me, room, env)
    case Disconnect => Leave(s, ctx, me)
    case _ =>
      match BoundGame(s, ctx)
      case None => Outcome(s, ctx, [], Completed)
      case Some(g) =>
        var e := Dispatch(g, ctx.value, me, ev, env.rnd);
        Outcome(s[ctx.value := e.game], ctx, e.out, e.status)
  }

  /** An event other than `join-room` and `disconnect` from a bound
      connection replaces the room's record by its handler's result. */
  lemma StepOnBoundRoom(s: Store, room: RoomId, me: ConnId, ev: Event, env: Env)
    requires room in s && !ev.JoinRoom? && !ev.Disconnect?
    ensures var e := Dispatch(s[room], room, me, ev, env.rnd);
      Step(s, Some(room), me, ev, env) == Outcome(s[room := e.game], Some(room), e.out, e.status)
  {
  }
}

=== FILE: session.dfy ===
/** The per-room game record (index.js lines 269-282) and the card bag used
    to state conservation. */
module Session {
  import opened Basics
  import opened Seqs
  import opened Deck
  import opened Layers

  /** A `socket.id`. */
  type ConnId = string

  /** A card on the table: `{card, x, y}`. */
  datatype Placed = Placed(card: Card, x: Val, y: Val)

  /** `games[room]`: roster, hands keyed by connection, table, deck (a stack
      whose top is its last element) and the eight layers. */
  datatype Game = Game(
    players: seq<ConnId>,
    hands: map<ConnId, seq<Card>>,
    table: seq<Placed>,
    deck: seq<Card>,
    dots: seq<Obj>,
    hexes: seq<Obj>,
    squares: seq<Obj>,
    images: seq<Obj>,
    cImages: seq<Obj>,
    gImages: seq<Obj>,
    csImages: seq<Obj>,
    dImages: seq<Obj>)

  /** Most players a room admits. */
  const Capacity: nat := 4

  /** The record built the first time someone joins a room. */
  function NewGame(rnd: Rng, layout: Layout): (g: Game)
    ensures g.players == [] && g.hands == map[] && g.table == []
    ensures |g.deck| == DeckSize && multiset(g.deck) == multiset(Universe()) && Distinct(g.deck)
  {
    Game([], map[], [], CreateMainDeck(rnd),
      InitLayer(Dots, layout), InitLayer(Hexes, layout), InitLayer(Squares, layout),
      InitLayer(Images, layout), InitLayer(CImages, layout), InitLayer(GImages, layout),
      InitLayer(CsImages, layout), InitLayer(DImages, layout))
  }

  /** Every layer of a new game is the seeded layer, at its fixed length. */
  lemma NewGameLayers(rnd: Rng, layout: Layout)
    ensures forall id :: LayerOf(NewGame(rnd, layout), id) == InitLayer(id, layout)
    ensures forall id :: |LayerOf(NewGame(rnd, layout), id)| == Size(id)
  {
    var g := NewGame(rnd, layout);
    forall id
      ensures LayerOf(g, id) == InitLayer(id, layout)
    {
      match id
      case Dots =>
      case Hexes =>
      case Squares =>
      case Images =>
      case CImages =>
      case GImages =>
      case CsImages =>
      case DImages =>
    }
  }

  /** The field holding layer `id`. */
  function LayerOf(g: Game, id: LayerId): seq<Obj> {
    match id
    case Dots => g.dots
    case Hexes => g.hexes
    case Squares => g.squares
    case Images => g.images
    case CImages => g.cImages
    case GImages => g.gImages
    case CsImages => g.csImages
    case DImages => g.dImages
  }

  /** `g` with layer `id` replaced by `l` and every other field kept. */
  function WithLayer(g: Game, id: LayerId, l: seq<Obj>): (r: Game)
    ensures LayerOf(r, id) == l
    ensures forall other :: other != id ==> LayerOf(r, other) == LayerOf(g, other)
    ensures r.players == g.players && r.hands == g.hands && r.table == g.table && r.deck == g.deck
  {
    match id
    case Dots => g.(dots := l)
    case Hexes => g.(hexes := l)
    case Squares => g.(squares := l)
    case Images => g.(images := l)
    case CImages => g.(cImages := l)
    case GImages => g.(gImages := l)
    case CsImages => g.(csImages := l)
    case DImages => g.(dImages := l)
  }

  /** Two records agree on all eight layers. */
  ghost predicate SameLayers(a: Game, b: Game) {
    forall id :: LayerOf(a, id) == LayerOf(b, id)
  }

  /** The hand of `id`, or the empty hand when it has none (index.js:260). */
  function HandOf(g: Game, id: ConnId): seq<Card> {
    if id in g.hands then g.hands[id] else []
  }

  /** A game record as the handlers keep it: at most four roster entries,
      a hand exactly for the connections on the roster, and every layer at
      its seeded length. */
  ghost predicate Wf(g: Game) {
    && |g.players| <= Capacity
    && (forall p :: p in g.hands <==> p in g.players)
    && (forall id :: |LayerOf(g, id)| == Size(id))
  }

  /** The cards lying on the table, in table order. */
  function TableCards(t: seq<Placed>): (cs: seq<Card>)
    ensures |cs| == |t|
    ensures forall i :: 0 <= i < |t| ==> cs[i] == t[i].card
  {
    seq(|t|, i requires 0 <= i < |t| => t[i].card)
  }

  /** All cards held in hands, counted with multiplicity. */
  ghost function HandsBag(h: map<ConnId, seq<Card>>): multiset<Card>
    decreases |h|
  {
    if |h| == 0 then multiset{}
    else
      var k :| k in h;
      multiset(h[k]) + HandsBag(h - {k})
  }

  /** Every card of the game: deck, hands and table together. */
  ghost function AllCards(g: Game): multiset<Card> {
    multiset(g.deck) + HandsBag(g.hands) + multiset(TableCards(g.table))
  }

  /** The hand bag may be split at any key, not only the one its definition
      happens to choose. */
  lemma {:induction false} HandsBagSplit(h: map<ConnId, seq<Card>>, k: ConnId)
    requires k in h
    ensures HandsBag(h) == multiset(h[k]) + HandsBag(h - {k})
    decreases |h|
  {
    var k' :| k' in h && HandsBag(h) == multiset(h[k']) + HandsBag(h - {k'});
    if k' != k {
      var rest := h - {k} - {k'};
      assert h - {k'} - {k} == rest;
      assert h - {k} - {k'} == rest;
      HandsBagSplit(h - {k'}, k);
      HandsBagSplit(h - {k}, k');
    }
  }

  /** Setting one hand: the bag is that hand plus all the other hands. */
  lemma HandsBagSet(h: map<ConnId, seq<Card>>, k: ConnId, v: seq<Card>)
    ensures HandsBag(h[k := v]) == multiset(v) + HandsBag(h - {k})
  {
    HandsBagSplit(h[k := v], k);
    assert h[k := v] - {k} == h - {k};
  }

  /** Taking one card `c` out of the hand of `k` takes exactly that card
      out of the bag. */
  lemma HandsBagTake(h: map<ConnId, seq<Card>>, k: ConnId, v: seq<Card>, c: Card)
    requires k in h && multiset(v) + multiset{c} == multiset(h[k])
    ensures HandsBag(h[k := v]) + multiset{c} == HandsBag(h)
  {
    HandsBagSet(h, k, v);
    HandsBagSplit(h, k);
  }

  /** Deleting one hand drops exactly that hand's cards from the bag. */
  lemma HandsBagRemove(h: map<ConnId, seq<Card>>, k: ConnId)
    ensures k in h ==> HandsBag(h - {k}) + multiset(h[k]) == HandsBag(h)
    ensures k !in h ==> HandsBag(h - {k}) == HandsBag(h)
  {
    if k in h {
      HandsBagSplit(h, k);
    } else {
      assert h - {k} == h;
    }
  }

  /** The bag of cards grows by one card when `p` is appended to the table. */
  lemma TableCardsAppend(t: seq<Placed>, p: Placed)
    ensures multiset(TableCards(t + [p])) == multiset(TableCards(t)) + multiset{p.card}
  {
    assert TableCards(t + [p]) == TableCards(t) + [p.card];
  }

  /** Removing table entry `i` removes exactly its card. */
  lemma TableCardsRemove(t: seq<Placed>, i: nat)
    requires i < |t|
    ensures multiset(TableCards(RemoveAt(t, i))) + multiset{t[i].card} == multiset(TableCards(t))
  {
    assert TableCards(RemoveAt(t, i)) == RemoveAt(TableCards(t), i);
  }
}
